=== FILE: README.md ===
# Healthcare booking backend: stores, guards, reviews and routes in Dafny

This project models the core of an Express/Mongoose backend for a doctor-booking
site. The model covers:

- **Account stores.** There are two: the `User` model holds patients and the
  `Doctor` model holds doctors. Each is a sequence in natural order, so
  `findOne` returns the first match and `find` returns matches in order.
- **Review collection and rating aggregate.** Each doctor keeps a
  denormalised `totalRating` / `numReviews` summary and a `reviews` id list.
  After every review save, `calcAverageRating` recomputes the summary.
- **`authenticate` and `restrict(roles)`.** These are the access guards of
  `auth/verifyToken.js`. `authenticate` extracts the bearer token with
  `split(" ")[1]` and verifies the JWT. `restrict` checks that the account
  exists in either store and then compares the *token's* role with the allowed
  roles.
- **`register` and `login`.** Registration checks for a duplicate email
  across both stores before it hashes the password.
- **Handlers.** These are the patient, doctor and review handlers.
  `updateUser` and `updateDoctor` apply a verbatim `$set`.
- **Route tables.** These are `Routes/user.js`, `Routes/doctor.js` and
  `Routes/review.js`, matched in declaration order. The review router is
  mounted under `/doctors/:doctorId/reviews` with `mergeParams`, and again
  on its own at `/reviews`.

The `Invariants` module states the conditions the stores are meant to keep:

- ids are unique, and so are emails across both stores;
- every account's role is the role of its store;
- every review passed its schema validators;
- every doctor's `totalRating`, `numReviews` and `reviews` list mirror the
  review collection.

It proves that `register`, `createReview` and both deletes keep these
conditions. So does every request served through `Handle` with a method
other than PUT. It also shows, with concrete witnesses, that the two `$set`
updates break them:

- a patient can take a doctor's email;
- a patient can write the role `admin` onto their own record, and that
  role then opens the admin-only route;
- a doctor can overwrite `numReviews`.

Several parts of the environment are parameters:

- the ObjectId driver (a generated id);
- bcryptjs and jsonwebtoken, as the `Crypto` bundle with the guarantees the
  code relies on stated in `Crypto.Sound`;
- the clock, as a token-expired flag;
- bcrypt's salt.

Ratings are `real`. The review schema bounds a rating to [1,5] and does not
require an integer, so a rating such as 4.5 is accepted.

## Model

| member | source | states |
|---|---|---|
| Text.Split | auth/verifyToken.js:17 | `split(" ")` yields at least one part, none containing the separator, and the first part is the longest separator-free prefix |
| Text.JoinSplit | auth/verifyToken.js:17 | joining the parts of a split with the separator gives back the original header text |
| Text.SplitJoin | auth/verifyToken.js:17 | splitting a join of separator-free parts gives back exactly those parts |
| Text.Trim | models/ReviewSchema.js:22-26 | the stored review text has no leading or trailing JavaScript whitespace and is no longer than the input |
| Text.TrimIsInfix | models/ReviewSchema.js:22-26 | trim removes only whitespace, and only from the two ends: the result is an infix flanked by whitespace |
| Text.TrimIdempotent | models/ReviewSchema.js:22-26 | trimming already-trimmed text changes nothing |
| Text.TrimEmptyIff | models/ReviewSchema.js:22-26 | text trims to empty exactly when it is all whitespace, so such a review fails the `required` check |
| Text.Lower | Controllers/doctorController.js:50-51 | ASCII case folding for the `$options: "i"` search keeps length and folds each character |
| Text.ContainsLowered | Controllers/doctorController.js:50-51 | whether the query occurs ignoring case does not change when the query is lower-cased first |
| ObjectId.CastObjectId | Controllers/userController.js:9-28 | a string casts to an ObjectId exactly when it is 24 hex digits, and the id is its lower-case spelling; otherwise the lookup throws |
| ObjectId.CastCanonical | Controllers/userController.js:9-11 | the text of a stored id casts back to that same id |
| Schema.NewDoctor | models/DoctorSchema.js:3-15 | a new doctor gets role "doctor", an empty review list and zero rating fields by schema default |
| Schema.ViewDropsOnlyPassword | Controllers/userController.js:11 | `.select("-password")` loses exactly the password: equal views mean records equal up to password |
| Schema.PatchPatient | Controllers/userController.js:60-64 | `$set` on a patient writes every path present in the body as given, with no validator (any role), keeps every absent path and the id, and drops doctor-only paths |
| Schema.PatchDoctor | Controllers/doctorController.js:86-90 | `$set` on a doctor writes every present path as given, the rating fields and review list included, and keeps every absent path and the id |
| Schema.PatchLaws | Controllers/userController.js:60-64 | a `$set` merge is idempotent, the empty body is the identity, and `_id` is never changed |
| Schema.FirstIndex | Controllers/authController.js:21-22 | `findOne` returns the first document in natural order that matches, and none when nothing matches |
| Schema.FirstIndexAtEnd | Controllers/authController.js:54-55 | a matching document appended after non-matching ones is the one `findOne` finds |
| Schema.Filter | Controllers/doctorController.js:47-56 | `find` with a filter keeps each matching document as often as stored and drops every other one |
| Schema.FilterMembers | Controllers/doctorController.js:47-56 | a document is in the result of a filtered `find` exactly when it is stored and matches |
| Schema.RemoveAt | Controllers/userController.js:93 | `findByIdAndDelete` removes one document and keeps the others in order |
| Schema.FindAccountById | auth/verifyToken.js:57-58 | the patient store is searched first; the result is a stored account with that id, and none exactly when neither store holds it |
| Schema.FindAccountByEmail | Controllers/authController.js:54-55 | the patient store is searched first; the result is a stored account with that email, and none exactly when no account in either store has it |
| Rating.ReviewsFor | models/ReviewSchema.js:36 | `$match: {doctor}` keeps each review of that doctor, as often as stored and in order, and no other review |
| Rating.ReviewsForMembers | models/ReviewSchema.js:36 | a review passes `$match` exactly when it is stored and names that doctor |
| Rating.ReviewsForNone | models/ReviewSchema.js:46-56 | a doctor nobody has reviewed has an empty match, the case that resets the fields |
| Rating.IdsOf | Controllers/reviewController.js:60-62 | the id list mirrors the reviews one for one, in order |
| Rating.AggregatePipeline | models/ReviewSchema.js:35-44 | the one-pass `$group` yields no group for an unreviewed doctor; otherwise one group whose count and average are those of the matched reviews |
| Rating.CalcAverageRating | models/ReviewSchema.js:34-58 | running the pipeline and writing its group's fields (or 0 and 0 without a group) stores exactly what `Rating.Recompute` describes |
| Rating.Recompute | models/ReviewSchema.js:34-58 | `calcAverageRating` makes the doctor's two fields equal the count and mean of its reviews, or 0/0 without reviews, and touches nothing else; an unknown id is a no-op |
| Rating.RecomputeIdempotent | models/ReviewSchema.js:46-57 | the recompute overwrites rather than increments, so running it twice equals running it once |
| Rating.RecomputeFixesConsistent | models/ReviewSchema.js:34-58 | on a doctor whose fields already agree with its reviews, recompute changes nothing |
| Rating.NewDoctorMatchesEmptyAggregate | models/DoctorSchema.js:12-14 | the schema defaults of a new doctor are what the aggregate gives an unreviewed doctor |
| Rating.SumRatingsBounds | models/ReviewSchema.js:16-21 | n ratings each within [1,5] sum to a value within [n, 5n] |
| Rating.AverageInRange | models/ReviewSchema.js:16-21 | the mean of a non-empty set of valid ratings is itself within [1,5] |
| Rating.ReviewsForAppend | models/ReviewSchema.js:63-65 | saving a review extends exactly its own doctor's match by that review |
| AccessGuard.BearerSplit | auth/verifyToken.js:10-17 | a header starting with "Bearer " splits into "Bearer" followed by the split of the remainder |
| AccessGuard.BearerToken | auth/verifyToken.js:17 | the token is the space-free text right after the prefix; anything after a further space is ignored |
| AccessGuard.DoubleSpaceGivesEmptyToken | auth/verifyToken.js:17 | "Bearer  x" (two spaces) yields the empty token, not "x" |
| AccessGuard.DoubleSpaceIsRefused | auth/verifyToken.js:17-41 | a header with two spaces after "Bearer" leaves the empty token, which `jwt.verify` rejects, so the request is answered 401 |
| AccessGuard.BearerTokenRoundTrip | auth/verifyToken.js:10-17 | prefixing a space-free token with "Bearer " and extracting it gives the token back |
| AccessGuard.Authenticate | auth/verifyToken.js:6-42 | 401 for a missing header, a wrong prefix or a rejected token; otherwise next() exactly when verification succeeds, carrying the payload's id and role |
| AccessGuard.AuthenticateIssuedToken | Controllers/authController.js:6-9 | a token from `generateToken` authenticates as exactly that id and role while unexpired, and is refused once expired |
| AccessGuard.Restrict | auth/verifyToken.js:45-83 | 401 without id or role, 500 for an uncastable id, 404 for an unknown account, 403 for a role not allowed, each exactly in its case; otherwise next() with the identity unchanged |
| AccessGuard.RestrictPassesIff | auth/verifyToken.js:45-75 | restrict calls next exactly when the identity is present, its id names an account in either store, and the token role is allowed |
| AccessGuard.RestrictIgnoresStoredRole | auth/verifyToken.js:57-73 | two databases whose stores hold the same ids in the same order get the same decision, whatever roles the stored accounts carry; only the token's role counts |
| AuthController.RegisteredAccount | Controllers/authController.js:28-35 | the new account has the new id, the given email, the bcrypt hash of the password and the requested role; "doctor" picks the doctor store with zero rating fields, and any other role the patient store |
| AuthController.Register | Controllers/authController.js:11-47 | 400 exactly for a missing field or an email taken in either store; 201 exactly for a complete form with a free email, the role "patient" or "doctor", and an id unused in that role's store; 500 otherwise; on 201 one account is appended to the store its role picks, with a hashed password and a token for its id and role; otherwise nothing changes |
| AuthController.Login | Controllers/authController.js:49-68 | 400, 404 and 401 exactly in their cases; on 200 the password matches the stored hash of the first account with that email (patients first), and the token carries its id and role |
| AuthController.RegisterThenLogin | Controllers/authController.js:28-63 | after a successful registration, logging in with the same email and password returns 200 with the new account and a token for its id and role |
| AuthController.RegisterNeverCreatesAdmin | Controllers/authController.js:30-35 | registration only creates accounts with role patient or doctor, never admin |
| UserController.GetSingleUser | Controllers/userController.js:8-30 | 500 exactly for an uncastable id, 404 exactly for an unknown one, otherwise 200 with that patient minus the password |
| UserController.GetAllUsers | Controllers/userController.js:35-52 | 200 with every patient, in store order and minus the password, with the count equal to the store size |
| UserController.UpdateUser | Controllers/userController.js:57-85 | 500 exactly for an id that does not cast or a merged email another patient holds; 404 exactly for an unknown patient; a stored patient with no clash gets 200, and only that patient changes, to the verbatim merge of the body; otherwise nothing changes |
| UserController.DeleteUser | Controllers/userController.js:90-111 | 500 exactly for an id that does not cast; 404 exactly for an unknown patient; 200 exactly for a stored patient, which is removed while nothing else changes |
| UserController.GetUserProfile | Controllers/userController.js:116-141 | keyed by the token's user id: 500 exactly when it does not cast, 404 exactly when no patient has it, otherwise 200 with that stored patient minus the password |
| UserController.InsertByDate | Controllers/userController.js:156 | inserting a booking into a newest-first list keeps it newest-first and adds exactly that booking |
| UserController.SortNewestFirst | Controllers/userController.js:156 | `.sort({createdAt: -1})` orders newest first and is a permutation of its input |
| UserController.GetMyAppointments | Controllers/userController.js:146-180 | 500 exactly for an uncastable token id; otherwise 200 with exactly the caller's bookings, each as often as stored, newest first, and an empty list still answers 200 |
| DoctorController.GetSingleDoctor | Controllers/doctorController.js:8-36 | 500 exactly for an uncastable id, 404 exactly for an unknown one, otherwise 200 with that doctor minus the password |
| DoctorController.ViewsOf | Controllers/doctorController.js:58-61 | each listed doctor appears, in order, as its password-free view |
| DoctorController.SearchMatches | Controllers/doctorController.js:47-53 | a doctor matches only when approved and the query fits in the name or specialization; the empty query matches every approved doctor |
| DoctorController.SearchIgnoresQueryCase | Controllers/doctorController.js:50-51 | a query and its lower-cased form select the same doctors |
| DoctorController.GetAllDoctors | Controllers/doctorController.js:41-77 | without a query, every doctor; with a query, exactly the approved doctors whose name or specialization contains the query ignoring case, each once and in stored order, with their number as the count |
| DoctorController.UpdateDoctor | Controllers/doctorController.js:82-111 | 500 exactly for an id that does not cast or a merged email another doctor holds; 404 exactly for an unknown doctor; a stored doctor with no clash gets 200, and only that doctor changes, to the verbatim merge of the body, derived rating fields and review list included; otherwise nothing changes |
| DoctorController.DeleteDoctor | Controllers/doctorController.js:116-140 | 500 exactly for an id that does not cast; 404 exactly for an unknown doctor; 200 exactly for a stored doctor, whose document alone goes while its reviews stay |
| DoctorController.GetDoctorProfile | Controllers/doctorController.js:145-176 | keyed by the token's user id: 500 exactly when it does not cast, 404 exactly when no doctor has it, otherwise 200 with that stored doctor minus the password |
| ReviewController.GetAllReviews | Controllers/reviewController.js:7-27 | 200 with each stored review once, in natural order, and their number as the count |
| ReviewController.GetAllReviewsIgnoresDoctor | Routes/review.js:5-11 | the nested listing ignores the `:doctorId` that `mergeParams` exposes: every doctor's path lists the same reviews |
| ReviewController.PushReviewId | Controllers/reviewController.js:60-62 | `$push` appends the id to the first doctor with that id only; an unknown doctor changes nothing |
| ReviewController.BuildReview | Controllers/reviewController.js:49-54 | `new Review({...})` yields a document exactly when both ids cast; it has the generated id, the cast doctor and user, the given rating and the trimmed text |
| ReviewController.SaveReview | models/ReviewSchema.js:63-65 | saving appends the review, then the post-save hook leaves the review's doctor with rating fields matching the extended collection; patients, bookings and every other doctor are unchanged |
| ReviewController.CreateReview | Controllers/reviewController.js:32-77 | 400 exactly when doctorId, rating or text is falsy; 500 for a rating outside [1,5] or a blank text; on 201 the stored review belongs to the token's user, its doctor gets fresh rating fields and the new id appended, and no other doctor changes; an unknown doctor id still saves the review |
| ReviewController.CreateReviewSucceedsIff | Controllers/reviewController.js:38-57 | a review is saved exactly when the three fields are truthy, both ids cast, the rating is in [1,5], the text is not blank and the generated id is unused |
| Routes.MatchPrefix | Routes/doctor.js:16 | a matched prefix consumes exactly as many path segments as the pattern has |
| Routes.DispatchRoutes | Routes/review.js:9-12 | a dispatched route is one of the router's routes and has the request's method |
| Routes.DispatchLayers | Routes/doctor.js:16-27 | a dispatched route is declared in the router, directly or in a mounted sub-router, and has the request's method |
| Routes.FirstLayerWins | Routes/user.js:19-35 | declaration order decides: the first layer that fits answers, and nothing answers when no layer fits |
| Routes.FirstRouteWins | Routes/review.js:9-12 | the same first-fit rule inside a router's route list |
| Routes.Dispatch | index.js:36-38 | the first path segment picks the users, doctors or standalone reviews router, and a dispatched route is declared in that router with the request's method; any other first segment matches nothing |
| Routes.RunHandler | Routes/doctor.js:19-27 | the read handlers never change the database, and a handler that does change it answered 200 or 201 |
| Routes.Handle | Routes/user.js:20-35 | an unmatched path answers 404, and a protected route whose `authenticate` halts answers 401; in both cases nothing changes |
| RoutePolicy.UserRoutesAllProtected | Routes/user.js:20-35 | every route under /users sits behind `authenticate` and `restrict` |
| RoutePolicy.UsersNeedToken | Routes/user.js:20-35 | without a bearer header, every /users request answers 401 or 404 and changes nothing |
| RoutePolicy.ParamMatches | Routes/user.js:20 | a `:id` pattern takes one non-empty segment and binds it |
| RoutePolicy.ListUsersIsAdminOnly | Routes/user.js:23 | GET /users reaches `getAllUsers` behind `restrict(["admin"])` |
| RoutePolicy.ListUsersNeedsAdminToken | Routes/user.js:23 | a 200 from GET /users implies the token authenticated with the role admin |
| RoutePolicy.TwoLitsMiss | Routes/user.js:32-35 | a two-literal pattern matches no other two-segment path |
| RoutePolicy.TwoLitsHit | Routes/user.js:32-35 | a two-literal pattern matches its own path, with no parameters |
| RoutePolicy.ParamMissesLonger | Routes/user.js:20-35 | a one-segment or empty pattern never matches a two-segment path |
| RoutePolicy.PatientIdRoutes | Routes/user.js:20-29 | GET, PUT and DELETE on /users/:id reach getSingleUser, updateUser and deleteUser, each for patients only, with `id` bound |
| RoutePolicy.PatientProfileRoute | Routes/user.js:32 | /users/profile/me reaches getUserProfile for patients; the literals are not taken as an `:id` |
| RoutePolicy.MyAppointmentsRoute | Routes/user.js:35 | /users/appointments/my-appointments reaches getMyAppointments for patients |
| RoutePolicy.ReviewMountMissesShort | Routes/doctor.js:16 | the nested review mount never takes a path shorter than two segments |
| RoutePolicy.DoctorIdRoutes | Routes/doctor.js:16-24 | GET /doctors and GET /doctors/:id are public, PUT needs doctor, DELETE needs admin, each with `id` bound |
| RoutePolicy.DoctorSelfRoute | Routes/doctor.js:16-27 | /doctors/profile/me reaches getDoctorProfile for doctors, although "profile" also fits the mount's `:doctorId` |
| RoutePolicy.NestedReviewRoutes | Routes/doctor.js:16 | /doctors/:doctorId/reviews lists reviews publicly and accepts a POST from patients, with `doctorId` merged into the params |
| RoutePolicy.UserHandlerCalls | Routes/user.js:20-35 | getSingleUser, updateUser and deleteUser get `:id` from the path, getAllUsers gets no argument, and the two self routes get the token's user id |
| RoutePolicy.DoctorHandlerCalls | Routes/doctor.js:20-27 | getSingleDoctor, updateDoctor and deleteDoctor get `:id` from the path, and the profile route gets the token's user id |
| RoutePolicy.ReviewHandlerCalls | Routes/review.js:12 | `createReview` gets the merged `doctorId`, if any, and the token's user id as the author |
| RoutePolicy.HandlePublic | Routes/doctor.js:19-20 | on a public route the handler runs without any identity |
| RoutePolicy.HandleGuardsPass | Routes/user.js:20-35 | once both guards call next, the handler runs with the token's identity |
| RoutePolicy.HandleRestrictHalts | Routes/user.js:20-35 | when `restrict` halts, its status is the answer and nothing changes |
| RoutePolicy.DoctorReadsArePublic | Routes/doctor.js:20 | GET /doctors/:id answers the same whatever the Authorization header holds |
| RoutePolicy.DoctorCannotPostReview | Routes/review.js:12 | a doctor's token for an existing account is refused with 403 on the review POST, and nothing is saved |
| RoutePolicy.PatientPostsReview | Routes/review.js:12 | a patient past the guards reaches `createReview` with the path's doctor id and the token's user id |
| RoutePolicy.UnmountedReviewPostIs400 | Routes/review.js:9-12 | on the standalone /reviews mount there is no `doctorId`, so a patient's POST answers 400 and saves nothing |
| RoutePolicy.NoOwnershipCheckOnPatients | Routes/user.js:20-29 | any patient past the guards may read, update or delete any patient id, not just their own |
| RoutePolicy.NoOwnershipCheckOnDoctors | Routes/doctor.js:23 | any doctor past the guards may update any doctor id |
| RoutePolicy.PatientProfileUsesTokenId | Routes/user.js:32 | the patient profile looks up the token's user id, never a path segment |
| RoutePolicy.AppointmentsUseTokenId | Routes/user.js:35 | the appointments list is keyed by the token's user id |
| RoutePolicy.DoctorProfileUsesTokenId | Routes/doctor.js:27 | the doctor profile looks up the token's user id |
| RoutePolicy.UpdatesOnlyOnPut | Routes/user.js:26 | the two verbatim `$set` handlers are reachable only with PUT |
| Invariants.DerivedFieldsAgree | models/DoctorSchema.js:12-14 | under the invariant, a doctor's review list is as long as numReviews, and totalRating is 0 with no reviews and within [1,5] otherwise |
| Invariants.IndexOfStoredId | models/UserSchema.js:3-10 | with unique ids, looking up a stored document's id finds that document |
| Invariants.AddPatientKeepsInv | models/UserSchema.js:3-10 | appending a patient with a fresh id, an unused email and the patient role keeps the invariant |
| Invariants.AddDoctorKeepsInv | models/DoctorSchema.js:3-15 | appending a doctor with schema defaults, a fresh id and an unused email keeps the invariant |
| Invariants.RegisterPreservesInv | Controllers/authController.js:11-47 | registration keeps cross-store email uniqueness, valid roles and consistent ratings |
| Invariants.ProfileAfterRegister | Controllers/authController.js:37-42 | the token registration returns authenticates as the new id and role, and the profile lookup keyed by that id answers 200 with the account just stored |
| Invariants.OtherDoctorsUnaffected | models/ReviewSchema.js:34-36 | a review for one doctor leaves every other doctor's summary correct |
| Invariants.ReviewedDoctorConsistent | Controllers/reviewController.js:57-62 | the hook's recompute plus the `$push` leave the reviewed doctor mirroring the extended collection |
| Invariants.SavedReviewKeepsInv | Controllers/reviewController.js:49-62 | a save with a schema-valid review, the hook and the push keep the whole invariant |
| Invariants.CreateReviewPreservesInv | Controllers/reviewController.js:32-77 | `createReview` keeps the invariant for every input, including an unknown doctor id |
| Invariants.RemoveAtOrigin | Controllers/userController.js:93 | deletion keeps the relative order of the remaining documents |
| Invariants.DeleteUserPreservesInv | Controllers/userController.js:90-111 | deleting a patient keeps the invariant |
| Invariants.DeleteDoctorPreservesInv | Controllers/doctorController.js:116-140 | deleting a doctor keeps the invariant; the reviews left behind are counted by no remaining doctor |
| Invariants.DeleteUserTwice | Controllers/userController.js:90-111 | with unique ids, deleting the same patient a second time answers 404 and changes nothing |
| Invariants.DeleteDoctorTwice | Controllers/doctorController.js:116-140 | with unique ids, deleting the same doctor a second time answers 404 and changes nothing |
| Invariants.UpdateUserSafeBody | Controllers/userController.js:57-64 | `updateUser` keeps the invariant when the body keeps the patient role and takes no doctor's email |
| Invariants.UpdateDoctorSafeBody | Controllers/doctorController.js:82-90 | `updateDoctor` keeps the invariant when the body keeps the doctor role, leaves the derived fields alone and takes no patient's email |
| Invariants.PatientCanTakeDoctorEmail | Controllers/userController.js:60-64 | any patient can set any doctor's email on their own record: 200, and the email then names two accounts |
| Invariants.PatientCanBecomeAdmin | Controllers/userController.js:60-64 | any patient can write the role admin onto their record: 200, and the stores then hold an invalid role |
| Invariants.AdminRoleOpensAdminRoutes | auth/verifyToken.js:45-75 | after that update, login issues an admin token that authenticates and passes `restrict(["admin"])` |
| Invariants.DoctorCanRewriteReviewCount | Controllers/doctorController.js:86-90 | any doctor's numReviews can be overwritten: 200, and the summary no longer matches the reviews |
| Invariants.RunHandlerKeepsInv | Routes/user.js:20-35 | every handler except the two `$set` updates keeps the invariant, whatever its inputs |
| Invariants.HandlePreservesInv | index.js:36-38 | any request with a method other than PUT, dispatched through the users, doctors or reviews router, keeps the invariant, whoever sends it |
| Invariants.StepKeepsInv | index.js:36-38 | one non-PUT request through the routers, or one registration with a fresh id, keeps the invariant |
| Invariants.ServePreservesInv | index.js:36-38 | any run of non-PUT requests and registrations with fresh ids, from an invariant state, ends in an invariant state |
| Invariants.ServeFromEmptyKeepsInv | index.js:36-38 | from a fresh deployment's empty stores, any run of non-PUT requests and registrations with fresh ids ends in an invariant state |
| Invariants.FirstSignUpStored | Controllers/authController.js:11-47 | on empty stores a complete patient registration stores exactly the new patient, so such runs do create accounts |
| Invariants.SaveKeepsDoctorIndex | models/ReviewSchema.js:63-65 | the post-save hook never moves or renames a doctor, so lookups by id still find it |
| Invariants.TwoReviewsMeanAfterHook | models/ReviewSchema.js:34-65 | two reviews rated a then b, saved for an unreviewed doctor, leave numReviews 2 and totalRating (a+b)/2 |
| Invariants.TwoReviewsMean | models/ReviewSchema.js:40-41 | a doctor whose match is two reviews has count 2 and the mean of the two ratings |
| Invariants.FiveThenThree | models/ReviewSchema.js:34-65 | ratings 5 then 3 on an unreviewed doctor of a consistent database give two reviews with mean 4 |

## Left out

- `index.js`: CORS, JSON and cookie parsing, the database connection, `listen` and the `GET /` test route are not modelled. Only its mounts are, with the `/api/v1` prefix stripped from every path.
- `Routes/auth.js` is not part of this model. `AuthController.Register` and `AuthController.Login` are modelled as handlers and are not dispatched through `Routes.Handle`.
- Express's default routing ignores case and allows a trailing slash. Paths are compared segment by segment exactly as given, and URL decoding is not modelled.
- bcryptjs and jsonwebtoken are foreign code. They are the `Crypto` parameter, and `Crypto.Sound` states the guarantees the code relies on. The signing secret, the 7-day lifetime and the salt are inputs; only "expired or not" is modelled.
- The ObjectId generator is a parameter (`newId`). Its uniqueness is a precondition (`Fresh`, or "not used" checks that answer 500), not a property of the driver.
- All errors collapse to the causes the model can see: an uncastable id, the unique email index, the role enum, a reused `_id`, and the review validators. Driver and network errors are not modelled.
- Request body and query values that are JSON objects or arrays are not modelled. Every field the handlers read is a string, a number or absent. With `strictQuery` off (index.js:46), an object in `email` would turn the `findOne` of register and login into an operator query, and an object `query` would change the doctor search.
- ObjectId.CastObjectId: follows the 24-hex-digit rule of current bson. Older bson versions also accept any 12-character string as an ObjectId, and such ids are not modelled; the model answers 500 where those versions would look the id up.
- Mongoose's cast of body strings to numbers (a rating sent as `"4"`) is not modelled. `Patch` fields are typed, so a `$set` body of the wrong type cannot be written.
- Rating arithmetic is exact real division. IEEE-754 rounding of `$avg` is not modelled.
- `populate(...)` of reviews, appointments, doctors and users in the responses is not modelled. Responses carry the stored documents with ids. Message strings and `success` flags are dropped.
- Timestamps (`createdAt`, `updatedAt`) are dropped, except a booking's `createdAt`, which `getMyAppointments` sorts by. `BookingSchema.js` is not part of this model, so a booking is reduced to its user and `createdAt`.
- `isApproved` is not declared by the doctor schema. It is an optional `approval` string on `Doctor`.
- The `$regex` search is modelled as case-insensitive literal containment over ASCII. Regular-expression metacharacters in the query are not interpreted. A query that is not a valid pattern, such as `(`, makes MongoDB throw, and the source answers 500 (Controllers/doctorController.js:70-75); the model answers 200.
- The review schema's `post("remove")` hook is not modelled. No handler in the core deletes a review, and `findByIdAndDelete` does not trigger document `remove` middleware.
- Concurrency is not modelled. Each request runs to completion before the next starts, and `save`, the post-save hook and the `$push` run in that order with nothing in between.
- Invariants.HandlePreservesInv: states preservation only for methods other than PUT, because `Invariants.PatientCanTakeDoctorEmail`, `Invariants.PatientCanBecomeAdmin` and `Invariants.DoctorCanRewriteReviewCount` show that the PUT handlers do not preserve it.
- Invariants.ServePreservesInv: covers runs without PUT requests only, for the same reason, and needs every registration to get a fresh ObjectId, as `Invariants.RegisterPreservesInv` does.
- Invariants.ServeFromEmptyKeepsInv: the same two limits as `Invariants.ServePreservesInv`.
- Invariants.RegisterPreservesInv: assumes the generated ObjectId is fresh. It must not be used by any account, nor named as a doctor by a stored review.
- Invariants.TwoReviewsMeanAfterHook: stated on the save-plus-hook step (`SaveReview`) rather than on two full `createReview` calls. The `$push` does not affect the two rating fields, and `Invariants.CreateReviewPreservesInv` covers the full handler.
- Invariants.FiveThenThree: a worked scenario on `SaveReview`, for the same reason.

=== FILE: auth_controller.dfy ===
/** Controllers/authController.js: registration, login and token issue. */
module AuthController {
  import opened Wrappers
  import opened ObjectId
  import opened Crypto
  import opened Schema
  import opened Http

  /** The fields `register` reads from the request body. */
  datatype Registration = Registration(
    name: Option<string>, email: Option<string>, password: Option<string>,
    photo: Option<string>, gender: Option<string>, role: Option<string>)

  /** The fields `login` reads from the request body. */
  datatype Credentials = Credentials(email: Option<string>, password: Option<string>)

  predicate MissingField(f: Registration) {
    !Truthy(f.name) || !Truthy(f.email) || !Truthy(f.password) || !Truthy(f.role)
  }

  predicate PatientIdUsed(db: Db, id: Id) {
    exists i :: 0 <= i < |db.patients| && db.patients[i].id == id
  }

  predicate DoctorIdUsed(db: Db, id: Id) {
    exists i :: 0 <= i < |db.doctors| && db.doctors[i].id == id
  }

  /** The account `register` builds for a form that passed validation. */
  function RegisteredAccount(c: Crypto, f: Registration, newId: Id, salt: string): (acct: Account)
    requires !MissingField(f)
    ensures acct.AccountId() == newId && acct.Email() == f.email.value
    ensures acct.Password() == c.hash(f.password.value, SaltRounds, salt)
    // the requested role picks the store and is stored as given
    ensures acct.DoctorAccount? <==> f.role.value == DoctorRole
    ensures acct.Role() == f.role.value
    ensures acct.DoctorAccount? ==>
              acct.doctor.reviews == [] && acct.doctor.numReviews == 0 && acct.doctor.totalRating == 0.0
  {
    var hashed := c.hash(f.password.value, SaltRounds, salt);
    if f.role.value == DoctorRole then
      DoctorAccount(NewDoctor(newId, f.name.value, f.email.value, hashed, f.photo, f.gender))
    else
      PatientAccount(Patient(newId, f.name.value, f.email.value, hashed, f.photo, f.gender, f.role.value))
  }

  /** `register`. `newId` is the ObjectId the driver generates and `salt`
      the salt bcrypt draws. */
  function Register(db: Db, c: Crypto, f: Registration, newId: Id, salt: string): (out: Outcome)
    ensures out.response.status in {201, 400, 500}
    ensures out.response.status != 201 ==> out.db == db
    // validation comes first, then the duplicate check across both stores
    ensures MissingField(f) ==> out.response.status == 400
    ensures !MissingField(f) && EmailTaken(db, f.email.value) ==> out.response.status == 400
    ensures out.response.status == 400 ==> MissingField(f) || EmailTaken(db, f.email.value)
    // the patient schema's role enum rejects every role other than "patient"
    ensures !MissingField(f) && !EmailTaken(db, f.email.value)
            && f.role.value != DoctorRole && f.role.value != PatientRole
            ==> out.response.status == 500
    // a complete form with a free email, a role the chosen schema accepts
    // and an id unused in that store is stored, and only such a form is
    ensures out.response.status == 201 <==>
              && !MissingField(f) && !EmailTaken(db, f.email.value)
              && ((f.role.value == DoctorRole && !DoctorIdUsed(db, newId))
                  || (f.role.value == PatientRole && !PatientIdUsed(db, newId)))
    ensures out.response.status == 201 ==>
              var acct := RegisteredAccount(c, f, newId, salt);
              && acct.Password() == c.hash(f.password.value, SaltRounds, salt)
              && acct.Email() == f.email.value && acct.AccountId() == newId
              && (acct.DoctorAccount? <==> f.role.value == DoctorRole)
              && out.response.payload == Session(IssueToken(c, newId, acct.Role()), acct)
              // the primary index refuses an id already in the target store
              && (acct.DoctorAccount? ==> !DoctorIdUsed(db, newId))
              && (acct.PatientAccount? ==> !PatientIdUsed(db, newId))
              && (acct.DoctorAccount? ==>
                    out.db == db.(doctors := db.doctors + [acct.doctor]))
              && (acct.PatientAccount? ==>
                    out.db == db.(patients := db.patients + [acct.patient]))
  {
    if MissingField(f) then Outcome(Status(400), db)
    else if EmailTaken(db, f.email.value) then Outcome(Status(400), db)
    else
      match RegisteredAccount(c, f, newId, salt)
      case DoctorAccount(d) =>
        // a second document with the same _id violates the primary index
        if DoctorIdUsed(db, newId) then Outcome(Status(500), db)
        else
          var acct := DoctorAccount(d);
          Outcome(Response(201, Session(IssueToken(c, newId, d.role), acct)),
                  db.(doctors := db.doctors + [d]))
      case PatientAccount(p) =>
        if p.role != PatientRole || PatientIdUsed(db, newId) then Outcome(Status(500), db)
        else
          var acct := PatientAccount(p);
          Outcome(Response(201, Session(IssueToken(c, newId, p.role), acct)),
                  db.(patients := db.patients + [p]))
  }

  /** `login`: 400 without email or password, 404 for an email in neither
      store, 401 for a password that does not match the stored hash, else
      200 with a token for the account found (patient store first). */
  function Login(db: Db, c: Crypto, cr: Credentials): (r: Response)
    ensures r.status in {200, 400, 401, 404}
    ensures r.status == 400 <==> !Truthy(cr.email) || !Truthy(cr.password)
    ensures r.status == 404 <==> Truthy(cr.email) && Truthy(cr.password)
                                 && FindAccountByEmail(db, cr.email.value).None?
    ensures r.status == 401 <==> Truthy(cr.email) && Truthy(cr.password)
                                 && FindAccountByEmail(db, cr.email.value).Some?
                                 && !c.compare(cr.password.value, FindAccountByEmail(db, cr.email.value).value.Password())
    ensures r.status == 200 ==>
              var acct := FindAccountByEmail(db, cr.email.value).value;
              && c.compare(cr.password.value, acct.Password())
              && r.payload == Session(IssueToken(c, acct.AccountId(), acct.Role()), acct)
  {
    if !Truthy(cr.email) || !Truthy(cr.password) then Status(400)
    else match FindAccountByEmail(db, cr.email.value)
      case None => Status(404)
      case Some(acct) =>
        if !c.compare(cr.password.value, acct.Password()) then Status(401)
        else Response(200, Session(IssueToken(c, acct.AccountId(), acct.Role()), acct))
  }

  /** After a successful registration, logging in with the same email and
      password succeeds and the issued token authenticates as the new
      account's id and stored role. */
  lemma RegisterThenLogin(db: Db, c: Crypto, f: Registration, newId: Id, salt: string)
    requires Sound(c)
    requires Register(db, c, f, newId, salt).response.status == 201
    ensures var db' := Register(db, c, f, newId, salt).db;
            var acct := RegisteredAccount(c, f, newId, salt);
            Login(db', c, Credentials(f.email, f.password))
              == Response(200, Session(IssueToken(c, newId, acct.Role()), acct))
  {
    var db' := Register(db, c, f, newId, salt).db;
    var acct := RegisteredAccount(c, f, newId, salt);
    var e := f.email.value;
    match acct
    case DoctorAccount(d) =>
      FirstIndexAtEnd(db.doctors, d, (x: Doctor) => x.email == e);
      assert FirstIndex(db'.patients, (x: Patient) => x.email == e).None?;
    case PatientAccount(p) =>
      FirstIndexAtEnd(db.patients, p, (x: Patient) => x.email == e);
    assert FindAccountByEmail(db', e) == Some(acct);
  }

  /** No account created by registration carries the role "admin" (nor any
      role other than patient and doctor). */
  lemma RegisterNeverCreatesAdmin(db: Db, c: Crypto, f: Registration, newId: Id, salt: string)
    requires Register(db, c, f, newId, salt).response.status == 201
    ensures RegisteredAccount(c, f, newId, salt).Role() in {PatientRole, DoctorRole}
    ensures RegisteredAccount(c, f, newId, salt).Role() != AdminRole
  {
  }
}

=== FILE: crypto.dfy ===
/** The two cryptographic libraries the backend calls, bcryptjs and
    jsonwebtoken, as a bundle of total functions with the properties the
    backend relies on stated in `Sound`. */
module Crypto {
  import opened Wrappers
  import ObjectId

  /** A token payload as `jwt.verify` hands it back: any of its fields may
      be missing. */
  datatype Claims = Claims(id: Option<string>, role: Option<string>)

  /** `expiresIn: "7d"`, in seconds. */
  const TokenLifetime: nat := 7 * 24 * 60 * 60

  /** `bcrypt.hash(password, 10)` uses cost factor 10. */
  const SaltRounds: nat := 10

  datatype Crypto = Crypto(
    /** bcrypt.hash(password, rounds) with the random salt made explicit */
    hash: (string, nat, string) -> string,
    /** bcrypt.compare(candidate, storedHash) */
    compare: (string, string) -> bool,
    /** jwt.sign(payload, secret, {expiresIn}) with the secret fixed */
    sign: (Claims, nat) -> string,
    /** jwt.verify(token, secret); the flag says the token's lifetime has
        elapsed. None stands for every error it throws. */
    verify: (string, bool) -> Option<Claims>)

  /** The library guarantees the backend depends on. */
  ghost predicate Sound(c: Crypto) {
    && (forall p, n, salt :: c.compare(p, c.hash(p, n, salt)))
    && (forall cl, life :: c.verify(c.sign(cl, life), false) == Some(cl))
    && (forall t :: c.verify(t, true) == None)
    // an empty token is refused ("jwt must be provided"), and no issued token is empty
    && (forall expired :: c.verify("", expired) == None)
    && (forall cl, life :: c.sign(cl, life) != "")
    // a compact JWS is base64url text joined by dots: it never holds a space
    && (forall cl, life :: ' ' !in c.sign(cl, life))
  }

  /** `generateToken(user)`: the payload is exactly the account's id and role. */
  function IssueToken(c: Crypto, id: ObjectId.Id, role: string): string {
    c.sign(Claims(Some(id), Some(role)), TokenLifetime)
  }
}

=== FILE: doctor_controller.dfy ===
/** Controllers/doctorController.js: the doctor-store handlers. */
module DoctorController {
  import opened Wrappers
  import opened Text
  import opened ObjectId
  import opened Schema
  import opened Http

  /** `getSingleDoctor`: the doctor without its password, or 404. */
  function GetSingleDoctor(db: Db, id: string): (r: Response)
    ensures r.status in {200, 404, 500}
    ensures r.status == 500 <==> CastObjectId(id).None?
    ensures r.status == 404 <==> CastObjectId(id).Some? && DoctorIndex(db, CastObjectId(id).value).None?
    ensures r.status == 200 ==>
              exists i :: 0 <= i < |db.doctors| && Some(db.doctors[i].id) == CastObjectId(id)
                          && r.payload == OneDoctor(DoctorViewOf(db.doctors[i]))
  {
    match CastObjectId(id)
    case None => Status(500)
    case Some(key) =>
      match DoctorIndex(db, key)
      case None => Status(404)
      case Some(i) => Response(200, OneDoctor(DoctorViewOf(db.doctors[i])))
  }

  const Approved := "approved"

  /** The search filter: approved, and the query occurs in the name or the
      specialization, ignoring case. */
  function SearchMatches(d: Doctor, query: string): (b: bool)
    ensures b ==> d.approval == Some(Approved)
    // the query fits inside the field it was found in
    ensures b ==> |query| <= |d.name| || (d.specialization.Some? && |query| <= |d.specialization.value|)
    // the empty query occurs everywhere
    ensures query == "" && d.approval == Some(Approved) ==> b
  {
    assert query == "" ==> OccursAt(d.name, query, 0);
    && d.approval == Some(Approved)
    && (ContainsIgnoreCase(d.name, query)
        || (d.specialization.Some? && ContainsIgnoreCase(d.specialization.value, query)))
  }

  /** `$options: "i"` applies to the query as well: a query and its
      lower-cased form select the same doctors. */
  lemma SearchIgnoresQueryCase(d: Doctor, query: string)
    ensures SearchMatches(d, Lower(query)) == SearchMatches(d, query)
  {
    ContainsLowered(d.name, query);
    if d.specialization.Some? {
      ContainsLowered(d.specialization.value, query);
    }
  }

  function ViewsOf(ds: seq<Doctor>): (vs: seq<DoctorView>)
    ensures |vs| == |ds|
    ensures forall i :: 0 <= i < |ds| ==> vs[i] == DoctorViewOf(ds[i])
  {
    seq(|ds|, i requires 0 <= i < |ds| => DoctorViewOf(ds[i]))
  }

  lemma ViewsOfMembers(ds: seq<Doctor>)
    ensures forall d :: d in ds ==> DoctorViewOf(d) in ViewsOf(ds)
    ensures forall v :: v in ViewsOf(ds) ==> exists d :: d in ds && v == DoctorViewOf(d)
  {
    forall d | d in ds
      ensures DoctorViewOf(d) in ViewsOf(ds)
    {
      var i :| 0 <= i < |ds| && ds[i] == d;
      assert ViewsOf(ds)[i] == DoctorViewOf(d);
    }
    forall v | v in ViewsOf(ds)
      ensures exists d :: d in ds && v == DoctorViewOf(d)
    {
      var i :| 0 <= i < |ds| && ViewsOf(ds)[i] == v;
      assert ds[i] in ds;
    }
  }

  /** `getAllDoctors`: with no (or an empty) query every doctor; with a
      query exactly the approved doctors that match it. */
  function GetAllDoctors(db: Db, query: Option<string>): (r: Response)
    ensures r.status == 200 && r.payload.DoctorList?
    ensures r.payload.count == |r.payload.doctors|
    ensures !Truthy(query) ==> r.payload.doctors == ViewsOf(db.doctors)
    ensures Truthy(query) ==>
              forall d :: DoctorViewOf(d) in r.payload.doctors <== d in db.doctors && SearchMatches(d, query.value)
    ensures Truthy(query) ==>
              forall v :: v in r.payload.doctors ==>
                exists d :: d in db.doctors && SearchMatches(d, query.value) && v == DoctorViewOf(d)
    // each matching doctor is listed once, in stored order
    ensures Truthy(query) ==>
              r.payload.doctors == ViewsOf(Filter(db.doctors, (d: Doctor) => SearchMatches(d, query.value)))
  {
    var found := if Truthy(query) then Filter(db.doctors, (d: Doctor) => SearchMatches(d, query.value))
                 else db.doctors;
    FilterMembers(db.doctors, (d: Doctor) => SearchMatches(d, query.GetOr("")));
    ViewsOfMembers(found);
    Response(200, DoctorList(|found|, ViewsOf(found)))
  }

  /** True when a doctor other than the one at index k holds the email. */
  predicate OtherDoctorHasEmail(db: Db, k: nat, email: string) {
    exists j :: 0 <= j < |db.doctors| && j != k && db.doctors[j].email == email
  }

  /** `updateDoctor`: a verbatim `$set` merge. The body may overwrite the
      derived `totalRating`, `numReviews` and `reviews` fields. */
  function UpdateDoctor(db: Db, id: string, body: Patch): (out: Outcome)
    ensures out.response.status in {200, 404, 500}
    ensures out.response.status != 200 ==> out.db == db
    ensures out.response.status == 404 <==>
              CastObjectId(id).Some? && DoctorIndex(db, CastObjectId(id).value).None?
    ensures out.response.status == 200 ==>
              CastObjectId(id).Some? && DoctorIndex(db, CastObjectId(id).value).Some?
    // a stored record is updated unless another record holds the new email
    ensures CastObjectId(id).Some? && DoctorIndex(db, CastObjectId(id).value).Some? ==>
              var k := DoctorIndex(db, CastObjectId(id).value).value;
              out.response.status == 200 <==>
                !OtherDoctorHasEmail(db, k, PatchDoctor(db.doctors[k], body).email)
    ensures out.response.status == 500 <==>
              || CastObjectId(id).None?
              || (DoctorIndex(db, CastObjectId(id).value).Some?
                  && var k := DoctorIndex(db, CastObjectId(id).value).value;
                     OtherDoctorHasEmail(db, k, PatchDoctor(db.doctors[k], body).email))
    ensures out.response.status == 200 ==>
              var k := DoctorIndex(db, CastObjectId(id).value).value;
              && out.db == db.(doctors := db.doctors[k := PatchDoctor(db.doctors[k], body)])
              && out.response.payload == OneDoctor(DoctorViewOf(out.db.doctors[k]))
              && !OtherDoctorHasEmail(db, k, out.db.doctors[k].email)
  {
    match CastObjectId(id)
    case None => Outcome(Status(500), db)
    case Some(key) =>
      match DoctorIndex(db, key)
      case None => Outcome(Status(404), db)
      case Some(k) =>
        var updated := PatchDoctor(db.doctors[k], body);
        if OtherDoctorHasEmail(db, k, updated.email) then Outcome(Status(500), db)
        else Outcome(Response(200, OneDoctor(DoctorViewOf(updated))),
                     db.(doctors := db.doctors[k := updated]))
  }

  /** `deleteDoctor`: remove only the doctor document; its reviews stay in
      the review collection. */
  function DeleteDoctor(db: Db, id: string): (out: Outcome)
    ensures out.response.status in {200, 404, 500}
    ensures out.response.status != 200 ==> out.db == db
    // a stored record is removed; only an id that does not cast is an error
    ensures out.response.status == 500 <==> CastObjectId(id).None?
    ensures out.response.status == 200 <==>
              CastObjectId(id).Some? && DoctorIndex(db, CastObjectId(id).value).Some?
    ensures out.response.status == 404 <==>
              CastObjectId(id).Some? && DoctorIndex(db, CastObjectId(id).value).None?
    ensures out.response.status == 200 ==>
              var k := DoctorIndex(db, CastObjectId(id).value).value;
              && out.db == db.(doctors := RemoveAt(db.doctors, k))
              && out.db.reviews == db.reviews
  {
    match CastObjectId(id)
    case None => Outcome(Status(500), db)
    case Some(key) =>
      match DoctorIndex(db, key)
      case None => Outcome(Status(404), db)
      case Some(k) => Outcome(Status(200), db.(doctors := RemoveAt(db.doctors, k)))
  }

  /** `getDoctorProfile`: the lookup of `getSingleDoctor`, keyed by the
      token's user id. */
  function GetDoctorProfile(db: Db, userId: string): (r: Response)
    ensures r.status in {200, 404, 500}
    ensures r.status == 500 <==> CastObjectId(userId).None?
    ensures r.status == 404 <==> CastObjectId(userId).Some? && DoctorIndex(db, CastObjectId(userId).value).None?
    ensures r.status == 200 ==>
              && CastObjectId(userId).Some? && DoctorIndex(db, CastObjectId(userId).value).Some?
              && r.payload == OneDoctor(DoctorViewOf(db.doctors[DoctorIndex(db, CastObjectId(userId).value).value]))
              && Some(r.payload.doctor.id) == CastObjectId(userId)
  {
    GetSingleDoctor(db, userId)
  }
}

=== FILE: guard.dfy ===
/** The access guard of auth/verifyToken.js: `authenticate` turns a bearer
    header into an identity and `restrict(roles)` decides whether that
    identity may reach a route. */
module AccessGuard {
  import opened Wrappers
  import opened Text
  import opened ObjectId
  import opened Crypto
  import opened Schema

  /** The header prefix of the Bearer scheme (section 2.1 of RFC 6750),
      compared case-sensitively. */
  const BearerPrefix := "Bearer "

  /** The identity `authenticate` attaches to the request (`req.userId`, `req.role`). */
  datatype Identity = Identity(userId: Option<string>, role: Option<string>)

  /** What a middleware does: answer with a status and stop, or call `next()`
      with the request's identity. */
  datatype Gate = Halt(status: nat) | Next(identity: Identity)

  lemma BearerSplit(h: string)
    requires StartsWith(h, BearerPrefix)
    ensures Split(h, ' ') == ["Bearer"] + Split(h[|BearerPrefix|..], ' ')
  {
    assert h == "Bearer" + [' '] + h[|BearerPrefix|..];
    SplitAfterWord("Bearer", ' ', h[|BearerPrefix|..]);
  }

  /** `authHeader.split(" ")[1]`: the longest space-free text after the
      prefix; anything after a further space is ignored. */
  function BearerToken(h: string): (t: string)
    requires StartsWith(h, BearerPrefix)
    ensures ' ' !in t
    ensures StartsWith(h[|BearerPrefix|..], t)
    ensures |BearerPrefix| + |t| == |h| || h[|BearerPrefix| + |t|] == ' '
  {
    BearerSplit(h);
    Split(h, ' ')[1]
  }

  /** A second space after the prefix yields the empty token. */
  lemma DoubleSpaceGivesEmptyToken(rest: string)
    ensures BearerToken("Bearer  " + rest) == ""
  {
    var h := "Bearer  " + rest;
    assert StartsWith(h, BearerPrefix);
    BearerSplit(h);
    assert h[|BearerPrefix|..] == "" + [' '] + rest;
    SplitAfterWord("", ' ', rest);
  }

  /** The empty token that a second space leaves is refused by
      `jwt.verify`, so such a header is answered 401. */
  lemma DoubleSpaceIsRefused(c: Crypto, rest: string, expired: bool)
    requires Sound(c)
    ensures Authenticate(c, Some("Bearer  " + rest), expired) == Halt(401)
  {
    DoubleSpaceGivesEmptyToken(rest);
    assert StartsWith("Bearer  " + rest, BearerPrefix);
  }

  /** A space-free token behind the prefix is extracted unchanged. */
  lemma BearerTokenRoundTrip(t: string)
    requires ' ' !in t
    ensures StartsWith(BearerPrefix + t, BearerPrefix)
    ensures BearerToken(BearerPrefix + t) == t
  {
    var h := BearerPrefix + t;
    assert StartsWith(h, BearerPrefix);
    BearerSplit(h);
    assert h[|BearerPrefix|..] == t;
    SplitWord(t, ' ');
  }

  /** `authenticate`: 401 for an absent header, a header without the exact
      prefix, or a token `jwt.verify` rejects; otherwise `next()` with the
      payload's `id` and `role` attached. */
  function Authenticate(c: Crypto, header: Option<string>, expired: bool): (g: Gate)
    ensures g.Halt? ==> g.status == 401
    ensures !Truthy(header) || !StartsWith(header.value, BearerPrefix) ==> g.Halt?
    ensures g.Next? <==> Truthy(header) && StartsWith(header.value, BearerPrefix)
                         && c.verify(BearerToken(header.value), expired).Some?
    ensures g.Next? ==> c.verify(BearerToken(header.value), expired)
                          == Some(Claims(g.identity.userId, g.identity.role))
  {
    if !Truthy(header) || !StartsWith(header.value, BearerPrefix) then Halt(401)
    else
      match c.verify(BearerToken(header.value), expired)
      case None => Halt(401)
      case Some(claims) => Next(Identity(claims.id, claims.role))
  }

  /** A token issued for an account authenticates as exactly that account's
      id and role while it is unexpired, and is refused once expired. */
  lemma AuthenticateIssuedToken(c: Crypto, id: Id, role: string)
    requires Sound(c)
    ensures Authenticate(c, Some(BearerPrefix + IssueToken(c, id, role)), false)
              == Next(Identity(Some(id), Some(role)))
    ensures Authenticate(c, Some(BearerPrefix + IssueToken(c, id, role)), true) == Halt(401)
  {
    BearerTokenRoundTrip(IssueToken(c, id, role));
  }

  /** `restrict(roles)`: 401 without an identity, 500 when the id does not
      cast (the lookup throws), 404 when neither store holds the account,
      403 when the token's role is not allowed, otherwise `next()`. */
  function Restrict(roles: seq<string>, who: Identity, db: Db): (g: Gate)
    ensures g.Halt? ==> g.status in {401, 403, 404, 500}
    ensures g == Halt(401) <==> !Truthy(who.userId) || !Truthy(who.role)
    ensures g == Halt(500) <==> Truthy(who.userId) && Truthy(who.role)
                                && CastObjectId(who.userId.value).None?
    ensures g == Halt(404) <==> Truthy(who.userId) && Truthy(who.role)
                                && CastObjectId(who.userId.value).Some?
                                && FindAccountById(db, CastObjectId(who.userId.value).value).None?
    ensures g == Halt(403) <==> Truthy(who.userId) && Truthy(who.role)
                                && CastObjectId(who.userId.value).Some?
                                && FindAccountById(db, CastObjectId(who.userId.value).value).Some?
                                && who.role.value !in roles
    ensures g.Next? ==> g.identity == who
  {
    if !Truthy(who.userId) || !Truthy(who.role) then Halt(401)
    else match CastObjectId(who.userId.value)
      case None => Halt(500)
      case Some(id) =>
        if FindAccountById(db, id).None? then Halt(404)
        else if who.role.value !in roles then Halt(403)
        else Next(who)
  }

  /** restrict calls next exactly when the identity is present, its id
      names an account in either store and its token role is allowed. */
  lemma RestrictPassesIff(roles: seq<string>, who: Identity, db: Db)
    ensures Restrict(roles, who, db).Next? <==>
              && Truthy(who.userId) && Truthy(who.role)
              && CastObjectId(who.userId.value).Some?
              && FindAccountById(db, CastObjectId(who.userId.value).value).Some?
              && who.role.value in roles
  {
  }

  /** restrict consults the store only for existence: two databases whose
      stores hold the same ids in the same order get the same decision,
      whatever roles (or other fields) the stored accounts carry; only the
      token's role counts. */
  lemma RestrictIgnoresStoredRole(roles: seq<string>, who: Identity, db: Db, db': Db)
    requires |db'.patients| == |db.patients| && |db'.doctors| == |db.doctors|
    requires forall k :: 0 <= k < |db.patients| ==> db'.patients[k].id == db.patients[k].id
    requires forall k :: 0 <= k < |db.doctors| ==> db'.doctors[k].id == db.doctors[k].id
    ensures Restrict(roles, who, db') == Restrict(roles, who, db)
  {
    if Truthy(who.userId) && Truthy(who.role) && CastObjectId(who.userId.value).Some? {
      var id := CastObjectId(who.userId.value).value;
      assert FindAccountById(db', id).None? == FindAccountById(db, id).None?;
    }
  }
}

=== FILE: http.dfy ===
/** What a handler answers: a status code and the data of the JSON
    envelope (message strings are presentation and are dropped). */
module Http {
  import opened Schema

  datatype Payload =
    | NoData
    | Session(token: string, account: Account)
    | OnePatient(patient: PatientView)
    | PatientList(count: nat, patients: seq<PatientView>)
    | OneDoctor(doctor: DoctorView)
    | DoctorList(count: nat, doctors: seq<DoctorView>)
    | OneReview(review: Review)
    | ReviewList(count: nat, reviews: seq<Review>)
    | BookingList(bookings: seq<Booking>)

  datatype Response = Response(status: nat, payload: Payload)

  /** A handler's answer together with the database after it ran. */
  datatype Outcome = Outcome(response: Response, db: Db)

  function Status(code: nat): Response {
    Response(code, NoData)
  }
}

=== FILE: invariants.dfy ===
/** The consistency conditions the stores are meant to keep, which
    operations keep them, and which `$set` updates break them. */
module Invariants {
  import opened Wrappers
  import opened ObjectId
  import opened Crypto
  import opened Schema
  import opened Rating
  import opened Http
  import opened AccessGuard
  import AuthController
  import ReviewController
  import UserController
  import DoctorController
  import opened Routes
  import RoutePolicy

  /** `_id` is unique within each collection, and no patient shares an id
      with a doctor (the lookups by id search the patient store first). */
  predicate IdsUnique(db: Db) {
    && (forall i, j :: 0 <= i < j < |db.patients| ==> db.patients[i].id != db.patients[j].id)
    && (forall i, j :: 0 <= i < j < |db.doctors| ==> db.doctors[i].id != db.doctors[j].id)
    && (forall i, j :: 0 <= i < j < |db.reviews| ==> db.reviews[i].id != db.reviews[j].id)
    && (forall i, j :: 0 <= i < |db.patients| && 0 <= j < |db.doctors| ==> db.patients[i].id != db.doctors[j].id)
  }

  /** An email names at most one account across both stores. */
  predicate EmailsUnique(db: Db) {
    && (forall i, j :: 0 <= i < j < |db.patients| ==> db.patients[i].email != db.patients[j].email)
    && (forall i, j :: 0 <= i < j < |db.doctors| ==> db.doctors[i].email != db.doctors[j].email)
    && (forall i, j :: 0 <= i < |db.patients| && 0 <= j < |db.doctors| ==> db.patients[i].email != db.doctors[j].email)
  }

  /** Every stored account has the role of its store. */
  predicate RolesValid(db: Db) {
    && (forall i :: 0 <= i < |db.patients| ==> db.patients[i].role == PatientRole)
    && (forall i :: 0 <= i < |db.doctors| ==> db.doctors[i].role == DoctorRole)
  }

  /** Every stored review passed the review schema's validators. */
  predicate ReviewsValid(db: Db) {
    forall i :: 0 <= i < |db.reviews| ==> ReviewSchemaAccepts(db.reviews[i])
  }

  /** A doctor's derived fields and review list mirror the review
      collection. */
  predicate DoctorConsistent(d: Doctor, rs: seq<Review>) {
    RatingFieldsMatch(d, rs) && d.reviews == IdsOf(ReviewsFor(rs, d.id))
  }

  predicate RatingsConsistent(db: Db) {
    forall i :: 0 <= i < |db.doctors| ==> DoctorConsistent(db.doctors[i], db.reviews)
  }

  predicate Inv(db: Db) {
    IdsUnique(db) && EmailsUnique(db) && RolesValid(db) && ReviewsValid(db) && RatingsConsistent(db)
  }

  /** An ObjectId no document uses yet, and no review names as its doctor. */
  predicate Fresh(db: Db, id: Id) {
    && (forall i :: 0 <= i < |db.patients| ==> db.patients[i].id != id)
    && (forall i :: 0 <= i < |db.doctors| ==> db.doctors[i].id != id)
    && (forall i :: 0 <= i < |db.reviews| ==> db.reviews[i].doctor != id)
  }

  /** Stores with no accounts and no reviews satisfy the invariant,
      whatever bookings exist: the state of a fresh deployment. */
  lemma EmptyStoresInv(db: Db)
    requires db.patients == [] && db.doctors == [] && db.reviews == []
    ensures Inv(db)
  {
  }

  /** Under the invariant, each doctor's review list is as long as its
      review count, and its mean rating is 0 without reviews and within
      [1,5] with some. */
  lemma DerivedFieldsAgree(db: Db, k: nat)
    requires Inv(db) && k < |db.doctors|
    ensures |db.doctors[k].reviews| == db.doctors[k].numReviews
    ensures db.doctors[k].numReviews == 0 ==> db.doctors[k].totalRating == 0.0
    ensures db.doctors[k].numReviews > 0 ==> MinRating <= db.doctors[k].totalRating <= MaxRating
  {
    var mine := ReviewsFor(db.reviews, db.doctors[k].id);
    if |mine| > 0 {
      ReviewsForMembers(db.reviews, db.doctors[k].id);
      forall i | 0 <= i < |mine|
        ensures MinRating <= mine[i].rating <= MaxRating
      {
        assert mine[i] in db.reviews;
        var j :| 0 <= j < |db.reviews| && db.reviews[j] == mine[i];
      }
      AverageInRange(mine);
    }
  }

  /** With unique ids, the first document with a stored id is that
      document. */
  lemma IndexOfStoredId(db: Db, k: nat)
    requires IdsUnique(db)
    ensures k < |db.patients| ==> PatientIndex(db, db.patients[k].id) == Some(k)
    ensures k < |db.doctors| ==> DoctorIndex(db, db.doctors[k].id) == Some(k)
  {
    if k < |db.patients| {
      var r := PatientIndex(db, db.patients[k].id);
      assert r.Some?;
    }
    if k < |db.doctors| {
      var r := DoctorIndex(db, db.doctors[k].id);
      assert r.Some?;
    }
  }

  /** Adding a patient with an unused id and email and the patient role
      keeps the invariant. */
  lemma AddPatientKeepsInv(db: Db, p: Patient)
    requires Inv(db) && Fresh(db, p.id) && !EmailTaken(db, p.email) && p.role == PatientRole
    ensures Inv(db.(patients := db.patients + [p]))
  {
    var db' := db.(patients := db.patients + [p]);
    assert db'.patients[|db.patients|] == p;
    assert IdsUnique(db');
    assert EmailsUnique(db');
    assert RolesValid(db');
  }

  /** Adding a doctor with defaults, an unused id no review names and an
      unused email keeps the invariant. */
  lemma AddDoctorKeepsInv(db: Db, d: Doctor)
    requires Inv(db) && Fresh(db, d.id) && !EmailTaken(db, d.email) && d.role == DoctorRole
    requires d.reviews == [] && d.numReviews == 0 && d.totalRating == 0.0
    ensures Inv(db.(doctors := db.doctors + [d]))
  {
    var db' := db.(doctors := db.doctors + [d]);
    assert db'.doctors[|db.doctors|] == d;
    ReviewsForNone(db.reviews, d.id);
    assert DoctorConsistent(d, db.reviews);
    assert IdsUnique(db');
    assert EmailsUnique(db');
    assert RolesValid(db');
    assert RatingsConsistent(db');
  }

  /** Registration keeps the invariant, given an ObjectId nobody uses. */
  lemma RegisterPreservesInv(db: Db, c: Crypto, f: AuthController.Registration, newId: Id, salt: string)
    requires Inv(db) && Fresh(db, newId)
    ensures Inv(AuthController.Register(db, c, f, newId, salt).db)
  {
    var out := AuthController.Register(db, c, f, newId, salt);
    if out.response.status == 201 {
      var acct := AuthController.RegisteredAccount(c, f, newId, salt);
      match acct
      case DoctorAccount(d) => AddDoctorKeepsInv(db, d);
      case PatientAccount(p) => AddPatientKeepsInv(db, p);
    }
  }

  /** The token registration issues names the new account: it
      authenticates as the new id and role, and the profile lookup keyed
      by that id answers 200 with the account just stored. */
  lemma ProfileAfterRegister(db: Db, c: Crypto, f: AuthController.Registration, newId: Id, salt: string)
    requires Sound(c)
    requires AuthController.Register(db, c, f, newId, salt).response.status == 201
    ensures var out := AuthController.Register(db, c, f, newId, salt);
            var acct := AuthController.RegisteredAccount(c, f, newId, salt);
            && Authenticate(c, Some(BearerPrefix + out.response.payload.token), false)
                 == Next(Identity(Some(newId), Some(acct.Role())))
            && (acct.PatientAccount? ==>
                  UserController.GetUserProfile(out.db, newId) == Response(200, OnePatient(PatientViewOf(acct.patient))))
            && (acct.DoctorAccount? ==>
                  DoctorController.GetDoctorProfile(out.db, newId) == Response(200, OneDoctor(DoctorViewOf(acct.doctor))))
  {
    var acct := AuthController.RegisteredAccount(c, f, newId, salt);
    AuthenticateIssuedToken(c, newId, acct.Role());
    CastCanonical(newId);
    match acct
    case PatientAccount(p) =>
      FirstIndexAtEnd(db.patients, p, (x: Patient) => x.id == newId);
    case DoctorAccount(d) =>
      FirstIndexAtEnd(db.doctors, d, (x: Doctor) => x.id == newId);
  }

  /** Appending a review for another doctor leaves a doctor's filtered
      list as it was. */
  lemma OtherDoctorsUnaffected(db: Db, r: Review, out: Db, k: nat)
    requires RatingsConsistent(db)
    requires out.reviews == db.reviews + [r]
    requires |out.doctors| == |db.doctors| && k < |db.doctors|
    requires out.doctors[k] == db.doctors[k] && db.doctors[k].id != r.doctor
    ensures DoctorConsistent(out.doctors[k], out.reviews)
  {
    ReviewsForAppend(db.reviews, r, db.doctors[k].id);
    assert ReviewsFor(out.reviews, db.doctors[k].id) == ReviewsFor(db.reviews, db.doctors[k].id);
    assert DoctorConsistent(db.doctors[k], db.reviews);
  }

  /** The reviewed doctor, refreshed by the hook and given the new id,
      mirrors the extended collection. */
  lemma ReviewedDoctorConsistent(db: Db, r: Review, out: Db, k: nat)
    requires RatingsConsistent(db)
    requires out.reviews == db.reviews + [r]
    requires |out.doctors| == |db.doctors| && k < |db.doctors| && db.doctors[k].id == r.doctor
    requires RatingFieldsMatch(out.doctors[k], out.reviews)
    requires out.doctors[k].reviews == db.doctors[k].reviews + [r.id]
    requires SameExceptRating(out.doctors[k].(reviews := db.doctors[k].reviews), db.doctors[k])
    ensures DoctorConsistent(out.doctors[k], out.reviews)
  {
    assert out.doctors[k].id == r.doctor;
    ReviewsForAppend(db.reviews, r, r.doctor);
    IdsOfAppend(ReviewsFor(db.reviews, r.doctor), r);
    assert DoctorConsistent(db.doctors[k], db.reviews);
  }

  /** What a successful save does to the stores, as `createReview`
      promises it, keeps the invariant. */
  lemma SavedReviewKeepsInv(db: Db, r: Review, out: Db)
    requires Inv(db) && ReviewSchemaAccepts(r)
    requires forall i :: 0 <= i < |db.reviews| ==> db.reviews[i].id != r.id
    requires out.reviews == db.reviews + [r]
    requires out.patients == db.patients && |out.doctors| == |db.doctors|
    requires DoctorIndex(db, r.doctor).None? ==> out.doctors == db.doctors
    requires DoctorIndex(db, r.doctor).Some? ==>
               var k := DoctorIndex(db, r.doctor).value;
               && RatingFieldsMatch(out.doctors[k], out.reviews)
               && out.doctors[k].reviews == db.doctors[k].reviews + [r.id]
               && SameExceptRating(out.doctors[k].(reviews := db.doctors[k].reviews), db.doctors[k])
               && forall i :: 0 <= i < |db.doctors| && i != k ==> out.doctors[i] == db.doctors[i]
    ensures Inv(out)
  {
    // the refreshed doctor keeps its id, email and role
    forall i | 0 <= i < |db.doctors|
      ensures out.doctors[i].id == db.doctors[i].id && out.doctors[i].email == db.doctors[i].email
      ensures out.doctors[i].role == db.doctors[i].role
    {
      if DoctorIndex(db, r.doctor) == Some(i) {
        assert out.doctors[i].(reviews := db.doctors[i].reviews).id == db.doctors[i].id;
      }
    }
    assert IdsUnique(out);
    assert EmailsUnique(out);
    assert RolesValid(out);
    assert out.reviews[|db.reviews|] == r;
    assert ReviewsValid(out);
    forall i | 0 <= i < |out.doctors|
      ensures DoctorConsistent(out.doctors[i], out.reviews)
    {
      match DoctorIndex(db, r.doctor)
      case None =>
        OtherDoctorsUnaffected(db, r, out, i);
      case Some(k) =>
        if i == k {
          ReviewedDoctorConsistent(db, r, out, k);
        } else {
          IndexOfStoredId(db, i);
          OtherDoctorsUnaffected(db, r, out, i);
        }
    }
  }

  /** `createReview` keeps the invariant: its own checks reject a reused
      review id, and the post-save hook refreshes the reviewed doctor. */
  lemma CreateReviewPreservesInv(db: Db, doctorId: Option<string>, userId: Option<string>,
                                 body: ReviewController.ReviewBody, newId: Id)
    requires Inv(db)
    ensures Inv(ReviewController.CreateReview(db, doctorId, userId, body, newId).db)
  {
    var out := ReviewController.CreateReview(db, doctorId, userId, body, newId);
    if out.response.status == 201 {
      var r := out.response.payload.review;
      assert !ReviewController.ReviewIdUsed(db, newId);
      SavedReviewKeepsInv(db, r, out.db);
    }
  }

  /** Every element of the shortened collection sits at an index of the
      original, and the order of two elements is kept. */
  lemma RemoveAtOrigin<T>(s: seq<T>, k: nat, i: nat, j: nat)
    requires k < |s| && i < j < |s| - 1
    ensures var i', j' := (if i < k then i else i + 1), (if j < k then j else j + 1);
            i' < j' < |s| && RemoveAt(s, k)[i] == s[i'] && RemoveAt(s, k)[j] == s[j']
  {
  }

  /** Deleting a patient keeps the invariant. */
  lemma DeleteUserPreservesInv(db: Db, id: string)
    requires Inv(db)
    ensures Inv(UserController.DeleteUser(db, id).db)
  {
    var out := UserController.DeleteUser(db, id);
    if out.response.status == 200 {
      var k := PatientIndex(db, CastObjectId(id).value).value;
      forall i, j | 0 <= i < j < |out.db.patients|
        ensures out.db.patients[i].id != out.db.patients[j].id
        ensures out.db.patients[i].email != out.db.patients[j].email
      {
        RemoveAtOrigin(db.patients, k, i, j);
      }
      assert IdsUnique(out.db);
    }
  }

  /** Deleting a doctor keeps the invariant; its reviews stay behind but
      no remaining doctor counts them. */
  lemma DeleteDoctorPreservesInv(db: Db, id: string)
    requires Inv(db)
    ensures Inv(DoctorController.DeleteDoctor(db, id).db)
  {
    var out := DoctorController.DeleteDoctor(db, id);
    if out.response.status == 200 {
      var k := DoctorIndex(db, CastObjectId(id).value).value;
      forall i, j | 0 <= i < j < |out.db.doctors|
        ensures out.db.doctors[i].id != out.db.doctors[j].id
        ensures out.db.doctors[i].email != out.db.doctors[j].email
      {
        RemoveAtOrigin(db.doctors, k, i, j);
      }
      assert IdsUnique(out.db);
    }
  }

  /** Deleting the same patient twice: with unique ids the second request
      finds nothing, answers 404 and changes nothing. */
  lemma DeleteUserTwice(db: Db, id: string)
    requires IdsUnique(db)
    requires UserController.DeleteUser(db, id).response.status == 200
    ensures var once := UserController.DeleteUser(db, id).db;
            UserController.DeleteUser(once, id) == Outcome(Status(404), once)
  {
    var key := CastObjectId(id).value;
    var k := PatientIndex(db, key).value;
    var once := UserController.DeleteUser(db, id).db;
    forall j | 0 <= j < |once.patients|
      ensures once.patients[j].id != key
    {
      if j < k {
        assert once.patients[j] == db.patients[j];
      } else {
        assert once.patients[j] == db.patients[j + 1];
      }
    }
  }

  /** The same for doctors. */
  lemma DeleteDoctorTwice(db: Db, id: string)
    requires IdsUnique(db)
    requires DoctorController.DeleteDoctor(db, id).response.status == 200
    ensures var once := DoctorController.DeleteDoctor(db, id).db;
            DoctorController.DeleteDoctor(once, id) == Outcome(Status(404), once)
  {
    var key := CastObjectId(id).value;
    var k := DoctorIndex(db, key).value;
    var once := DoctorController.DeleteDoctor(db, id).db;
    forall j | 0 <= j < |once.doctors|
      ensures once.doctors[j].id != key
    {
      if j < k {
        assert once.doctors[j] == db.doctors[j];
      } else {
        assert once.doctors[j] == db.doctors[j + 1];
      }
    }
  }

  /** `updateUser` keeps the invariant when the body neither changes the
      role nor takes an email a doctor holds: the patient-store index is
      the only email check the update makes. */
  lemma UpdateUserSafeBody(db: Db, id: string, body: Patch)
    requires Inv(db)
    requires body.role.GetOr(PatientRole) == PatientRole
    requires body.email.Some? ==> forall j :: 0 <= j < |db.doctors| ==> db.doctors[j].email != body.email.value
    ensures Inv(UserController.UpdateUser(db, id, body).db)
  {
    var out := UserController.UpdateUser(db, id, body);
    if out.response.status == 200 {
      var k := PatientIndex(db, CastObjectId(id).value).value;
      assert !UserController.OtherPatientHasEmail(db, k, out.db.patients[k].email);
      assert EmailsUnique(out.db);
    }
  }

  /** `updateDoctor` keeps the invariant when the body leaves the role and
      the three derived fields alone and takes no patient's email. */
  lemma UpdateDoctorSafeBody(db: Db, id: string, body: Patch)
    requires Inv(db)
    requires body.role.GetOr(DoctorRole) == DoctorRole
    requires body.reviews.None? && body.totalRating.None? && body.numReviews.None?
    requires body.email.Some? ==> forall j :: 0 <= j < |db.patients| ==> db.patients[j].email != body.email.value
    ensures Inv(DoctorController.UpdateDoctor(db, id, body).db)
  {
    var out := DoctorController.UpdateDoctor(db, id, body);
    if out.response.status == 200 {
      var k := DoctorIndex(db, CastObjectId(id).value).value;
      assert !DoctorController.OtherDoctorHasEmail(db, k, out.db.doctors[k].email);
      assert EmailsUnique(out.db);
      assert out.db.doctors[k].id == db.doctors[k].id;
      assert DoctorConsistent(db.doctors[k], db.reviews);
      assert RatingsConsistent(out.db);
    }
  }

  /** A body that sets only the given fields. */
  function EmailPatch(email: string): Patch { EmptyPatch.(email := Some(email)) }
  function RolePatch(role: string): Patch { EmptyPatch.(role := Some(role)) }
  function CountPatch(n: int): Patch { EmptyPatch.(numReviews := Some(n)) }

  /** Any stored patient may take any stored doctor's email through
      `updateUser`: the update succeeds and the email then names two
      accounts. */
  lemma PatientCanTakeDoctorEmail(db: Db, k: nat, j: nat)
    requires Inv(db) && k < |db.patients| && j < |db.doctors|
    ensures var out := UserController.UpdateUser(db, db.patients[k].id, EmailPatch(db.doctors[j].email));
            out.response.status == 200 && !EmailsUnique(out.db)
  {
    CastCanonical(db.patients[k].id);
    IndexOfStoredId(db, k);
    var out := UserController.UpdateUser(db, db.patients[k].id, EmailPatch(db.doctors[j].email));
    assert out.db.patients[k].email == out.db.doctors[j].email;
  }

  /** Any stored patient may write the role "admin" on its own record
      through `updateUser`, after which the stores hold a role other than
      patient and doctor. */
  lemma PatientCanBecomeAdmin(db: Db, k: nat)
    requires Inv(db) && k < |db.patients|
    ensures var out := UserController.UpdateUser(db, db.patients[k].id, RolePatch(AdminRole));
            && out.response.status == 200
            && out.db.patients[k].role == AdminRole
            && !RolesValid(out.db)
  {
    CastCanonical(db.patients[k].id);
    IndexOfStoredId(db, k);
    var out := UserController.UpdateUser(db, db.patients[k].id, RolePatch(AdminRole));
    assert !UserController.OtherPatientHasEmail(db, k, out.db.patients[k].email);
  }

  /** After that update, logging in with the patient's own password yields
      a token with the role "admin", and `restrict(["admin"])` lets it
      through: the route that lists every patient is now open to them. */
  lemma AdminRoleOpensAdminRoutes(db: Db, c: Crypto, k: nat, password: string)
    requires Sound(c)
    requires Inv(db) && k < |db.patients|
    requires db.patients[k].email != "" && password != ""
    requires c.compare(password, db.patients[k].password)
    ensures var out := UserController.UpdateUser(db, db.patients[k].id, RolePatch(AdminRole));
            var id := db.patients[k].id;
            var r := AuthController.Login(out.db, c, AuthController.Credentials(Some(db.patients[k].email), Some(password)));
            && r.status == 200
            && r.payload.token == IssueToken(c, id, AdminRole)
            && Authenticate(c, Some(BearerPrefix + r.payload.token), false) == Next(Identity(Some(id), Some(AdminRole)))
            && Restrict(Routes.Admins, Identity(Some(id), Some(AdminRole)), out.db).Next?
  {
    PatientCanBecomeAdmin(db, k);
    var out := UserController.UpdateUser(db, db.patients[k].id, RolePatch(AdminRole));
    var id := db.patients[k].id;
    var e := db.patients[k].email;
    var p := out.db.patients[k];
    // the first patient with this email is the updated one
    assert FirstIndex(out.db.patients, (x: Patient) => x.email == e) == Some(k) by {
      var r := FirstIndex(out.db.patients, (x: Patient) => x.email == e);
      assert ((x: Patient) => x.email == e)(out.db.patients[k]);
      assert r.Some?;
    }
    assert FindAccountByEmail(out.db, e) == Some(PatientAccount(p));
    AuthenticateIssuedToken(c, id, AdminRole);
    CastCanonical(id);
    assert FindAccountById(out.db, id).Some? by {
      assert out.db.patients[k].id == id;
    }
  }

  /** Any doctor's `numReviews` may be overwritten through `updateDoctor`,
      after which it no longer counts the doctor's reviews. */
  lemma DoctorCanRewriteReviewCount(db: Db, k: nat, n: int)
    requires Inv(db) && k < |db.doctors| && n != db.doctors[k].numReviews
    ensures var out := DoctorController.UpdateDoctor(db, db.doctors[k].id, CountPatch(n));
            && out.response.status == 200
            && out.db.doctors[k].numReviews == n
            && out.db.reviews == db.reviews
            && !RatingsConsistent(out.db)
  {
    CastCanonical(db.doctors[k].id);
    IndexOfStoredId(db, k);
    var out := DoctorController.UpdateDoctor(db, db.doctors[k].id, CountPatch(n));
    assert !DoctorController.OtherDoctorHasEmail(db, k, out.db.doctors[k].email);
    assert DoctorConsistent(db.doctors[k], db.reviews);
    assert !DoctorConsistent(out.db.doctors[k], out.db.reviews);
  }

  /** Every handler except the two `$set` updates keeps the invariant. */
  lemma RunHandlerKeepsInv(h: Handler, db: Db, env: Env, req: Request,
                           params: map<string, string>, who: Identity)
    requires Inv(db) && h != Handler.UpdateUser && h != Handler.UpdateDoctor
    ensures Inv(RunHandler(h, db, env, req, params, who).db)
  {
    var id := ParamOf(params, "id").GetOr("");
    match h
    case DeleteUser => DeleteUserPreservesInv(db, id);
    case DeleteDoctor => DeleteDoctorPreservesInv(db, id);
    case CreateReview =>
      CreateReviewPreservesInv(db, ParamOf(params, "doctorId"), who.userId,
                               ReviewController.ReviewBody(req.body.rating, req.body.reviewText), env.newId);
    case _ =>
  }

  /** A request with any method but PUT keeps the invariant, whoever sends
      it and whatever it carries. */
  lemma HandlePreservesInv(db: Db, env: Env, req: Request)
    requires Inv(db) && req.verb != PUT
    ensures Inv(Handle(db, env, req).db)
  {
    match Dispatch(req.verb, req.path)
    case None =>
    case Some(mt) =>
      RoutePolicy.UpdatesOnlyOnPut(req.verb, req.path);
      match mt.route.guard
      case Public =>
        RunHandlerKeepsInv(mt.route.handler, db, env, req, mt.params, Identity(None, None));
      case Protected(roles) =>
        match Authenticate(env.crypto, req.authorization, env.tokenExpired)
        case Halt(_) =>
        case Next(who) =>
          RunHandlerKeepsInv(mt.route.handler, db, env, req, mt.params, who);
  }

  /** One step of a run: a request served through the routers, or a
      registration. The registration route is not part of this model, so
      a registration calls `register` directly. */
  datatype Step =
    | Call(env: Env, req: Request)
    | SignUp(env: Env, form: AuthController.Registration, salt: string)

  /** The database after one step. */
  function Apply(db: Db, s: Step): Db {
    match s
    case Call(env, req) => Handle(db, env, req).db
    case SignUp(env, f, salt) => AuthController.Register(db, env.crypto, f, env.newId, salt).db
  }

  /** The database after the steps one after another, each with its own
      environment. */
  function Serve(db: Db, steps: seq<Step>): Db
    decreases |steps|
  {
    if |steps| == 0 then db
    else Serve(Apply(db, steps[0]), steps[1..])
  }

  /** A step that is not a PUT, and whose registration gets a fresh id. */
  predicate SafeStep(db: Db, s: Step) {
    && (s.Call? ==> s.req.verb != PUT)
    && (s.SignUp? ==> Fresh(db, s.env.newId))
  }

  /** No request of the run is a PUT, and the driver hands every
      registration an ObjectId that is fresh in the database it meets. */
  predicate SafeRun(db: Db, steps: seq<Step>)
    decreases |steps|
  {
    || |steps| == 0
    || (SafeStep(db, steps[0]) && SafeRun(Apply(db, steps[0]), steps[1..]))
  }

  /** One safe step keeps the invariant. */
  lemma StepKeepsInv(db: Db, s: Step)
    requires Inv(db) && SafeStep(db, s)
    ensures Inv(Apply(db, s))
  {
    match s
    case Call(env, req) => HandlePreservesInv(db, env, req);
    case SignUp(env, f, salt) => RegisterPreservesInv(db, env.crypto, f, env.newId, salt);
  }

  /** From an invariant state, any safe run of requests and registrations
      ends in an invariant state. */
  lemma {:induction false} ServePreservesInv(db: Db, steps: seq<Step>)
    requires Inv(db) && SafeRun(db, steps)
    ensures Inv(Serve(db, steps))
    decreases |steps|
  {
    if |steps| > 0 {
      StepKeepsInv(db, steps[0]);
      ServePreservesInv(Apply(db, steps[0]), steps[1..]);
    }
  }

  /** Stores whose doctors carry the same ids in the same order find the
      same first doctor for an id. */
  lemma SameIdsSameIndex(db: Db, db': Db, d: Id)
    requires |db'.doctors| == |db.doctors|
    requires forall j :: 0 <= j < |db.doctors| ==> db'.doctors[j].id == db.doctors[j].id
    ensures DoctorIndex(db', d) == DoctorIndex(db, d)
  {
    assert forall j :: 0 <= j < |db.doctors| ==>
      ((x: Doctor) => x.id == d)(db.doctors[j]) == ((x: Doctor) => x.id == d)(db'.doctors[j]);
    FirstIndexAgrees(db.doctors, db'.doctors, (x: Doctor) => x.id == d);
  }

  /** The post-save hook keeps the first doctor with an id first. */
  lemma SaveKeepsDoctorIndex(db: Db, r: Review, k: nat)
    requires k < |db.doctors| && DoctorIndex(db, db.doctors[k].id) == Some(k)
    ensures var db' := ReviewController.SaveReview(db, r);
            k < |db'.doctors| && db'.doctors[k].id == db.doctors[k].id
            && DoctorIndex(db', db.doctors[k].id) == Some(k)
  {
    var d := db.doctors[k].id;
    var db' := ReviewController.SaveReview(db, r);
    var mid := db.(reviews := db.reviews + [r]);
    assert DoctorIndex(mid, r.doctor) == DoctorIndex(db, r.doctor);
    forall j | 0 <= j < |db.doctors|
      ensures db'.doctors[j].id == db.doctors[j].id
    {
      if DoctorIndex(db, r.doctor) == Some(j) {
        assert SameExceptRating(db'.doctors[j], db.doctors[j]);
      }
    }
    SameIdsSameIndex(db, db', d);
  }

  /** Two reviews, rated a then b, saved for a doctor nobody has reviewed:
      after the second hook the doctor counts two reviews with mean
      (a + b) / 2. */
  lemma TwoReviewsMeanAfterHook(db: Db, k: nat, r1: Review, r2: Review)
    requires k < |db.doctors| && DoctorIndex(db, db.doctors[k].id) == Some(k)
    requires ReviewsFor(db.reviews, db.doctors[k].id) == []
    requires r1.doctor == db.doctors[k].id && r2.doctor == db.doctors[k].id
    ensures var db2 := ReviewController.SaveReview(ReviewController.SaveReview(db, r1), r2);
            && k < |db2.doctors|
            && db2.doctors[k].numReviews == 2
            && db2.doctors[k].totalRating == (r1.rating + r2.rating) / 2.0
  {
    var d := db.doctors[k].id;
    var db1 := ReviewController.SaveReview(db, r1);
    SaveKeepsDoctorIndex(db, r1, k);
    var db2 := ReviewController.SaveReview(db1, r2);
    var mid := db1.(reviews := db1.reviews + [r2]);
    assert DoctorIndex(mid, d) == Some(k);
    ReviewsForAppend(db.reviews, r1, d);
    ReviewsForAppend(db1.reviews, r2, d);
    assert ReviewsFor(db2.reviews, d) == [r1, r2];
    TwoReviewsMean(db2.doctors[k], db2.reviews, r1, r2);
  }

  /** A consistent doctor whose filtered list is [r1, r2] has count 2 and
      the mean of the two ratings. */
  lemma TwoReviewsMean(doc: Doctor, rs: seq<Review>, r1: Review, r2: Review)
    requires RatingFieldsMatch(doc, rs) && ReviewsFor(rs, doc.id) == [r1, r2]
    ensures doc.numReviews == 2 && doc.totalRating == (r1.rating + r2.rating) / 2.0
  {
    SumRatingsAppend([], r1);
    SumRatingsAppend([r1], r2);
    assert [] + [r1] == [r1] && [r1] + [r2] == [r1, r2];
  }

  /** Ratings 5 then 3 on an unreviewed doctor of a consistent database
      give two reviews and a mean of 4. */
  lemma FiveThenThree(db: Db, k: nat, user: Id, id1: Id, id2: Id)
    requires Inv(db) && k < |db.doctors| && db.doctors[k].numReviews == 0
    ensures var d := db.doctors[k].id;
            var db2 := ReviewController.SaveReview(ReviewController.SaveReview(db, Review(id1, d, user, 5.0, "great")),
                                                   Review(id2, d, user, 3.0, "fine"));
            k < |db2.doctors| && db2.doctors[k].numReviews == 2 && db2.doctors[k].totalRating == 4.0
  {
    IndexOfStoredId(db, k);
    assert ReviewsFor(db.reviews, db.doctors[k].id) == [] by {
      DerivedFieldsAgree(db, k);
      assert DoctorConsistent(db.doctors[k], db.reviews);
      assert |IdsOf(ReviewsFor(db.reviews, db.doctors[k].id))| == 0;
    }
    var d := db.doctors[k].id;
    TwoReviewsMeanAfterHook(db, k, Review(id1, d, user, 5.0, "great"), Review(id2, d, user, 3.0, "fine"));
  }

  /** Starting from the empty stores of a fresh deployment, any safe run
      of requests and registrations ends in an invariant state. */
  lemma ServeFromEmptyKeepsInv(db: Db, steps: seq<Step>)
    requires db.patients == [] && db.doctors == [] && db.reviews == []
    requires SafeRun(db, steps)
    ensures Inv(Serve(db, steps))
  {
    EmptyStoresInv(db);
    ServePreservesInv(db, steps);
  }

  /** Runs from empty stores do grow them: a first complete patient
      registration stores exactly that patient. */
  lemma FirstSignUpStored(db: Db, env: Env, f: AuthController.Registration, salt: string)
    requires db.patients == [] && db.doctors == [] && db.reviews == []
    requires !AuthController.MissingField(f) && f.role.value == PatientRole
    ensures Serve(db, [SignUp(env, f, salt)]).patients
              == [AuthController.RegisteredAccount(env.crypto, f, env.newId, salt).patient]
  {
    assert !EmailTaken(db, f.email.value);
    assert Serve(db, [SignUp(env, f, salt)]) == Apply(db, SignUp(env, f, salt));
  }
}

=== FILE: object_id.dfy ===
/** MongoDB ObjectIds as the backend sees them: 24 hexadecimal digits. A
    request string is cast before every `findById`; a string that does not
    cast raises a CastError, which the handlers turn into status 500. */
module ObjectId {
  import opened Wrappers
  import Text

  predicate IsHexDigit(c: char) {
    ('0' <= c <= '9') || ('a' <= c <= 'f') || ('A' <= c <= 'F')
  }

  predicate IsLowerHexDigit(c: char) {
    ('0' <= c <= '9') || ('a' <= c <= 'f')
  }

  /** The canonical (lower-case) text of an ObjectId. */
  predicate IsCanonical(s: string) {
    |s| == 24 && forall i :: 0 <= i < |s| ==> IsLowerHexDigit(s[i])
  }

  type Id = s: string | IsCanonical(s) witness "000000000000000000000000"

  /** The cast mongoose applies to a string used as an ObjectId; hex digits
      of either case denote the same id. */
  function CastObjectId(s: string): (r: Option<Id>)
    ensures r.Some? <==> |s| == 24 && forall i :: 0 <= i < |s| ==> IsHexDigit(s[i])
    ensures r.Some? ==> Text.Lower(r.value) == Text.Lower(s)
  {
    if |s| == 24 && forall i :: 0 <= i < |s| ==> IsHexDigit(s[i]) then
      var t := Text.Lower(s);
      assert forall i :: 0 <= i < |t| ==> IsLowerHexDigit(t[i]);
      Some(t)
    else None
  }

  /** Casting the text of an id gives back the same id. */
  lemma CastCanonical(id: Id)
    ensures CastObjectId(id) == Some(id)
  {
    assert forall i :: 0 <= i < |id| ==> IsHexDigit(id[i]) && Text.LowerAscii(id[i]) == id[i];
    assert Text.Lower(id) == id;
  }
}

=== FILE: rating.dfy ===
/** The review-driven rating aggregate: `calcAverageRating` and the
    denormalised `totalRating` / `numReviews` fields it maintains. */
module Rating {
  import opened Wrappers
  import opened ObjectId
  import opened Schema

  /** The reviews a `$match: {doctor: d}` stage lets through: each review
      of doctor d, as often as it is stored, in stored order. */
  function ReviewsFor(rs: seq<Review>, d: Id): (r: seq<Review>)
    ensures |r| <= |rs|
    ensures forall j :: 0 <= j < |r| ==> r[j].doctor == d
    ensures forall x {:trigger multiset(r)[x]} :: multiset(r)[x] == if x.doctor == d then multiset(rs)[x] else 0
  {
    Filter(rs, (x: Review) => x.doctor == d)
  }

  /** A doctor nobody reviewed has no reviews in the filter. */
  lemma {:induction false} ReviewsForNone(rs: seq<Review>, d: Id)
    requires forall i :: 0 <= i < |rs| ==> rs[i].doctor != d
    ensures ReviewsFor(rs, d) == []
    decreases |rs|
  {
    if |rs| > 0 {
      ReviewsForNone(rs[..|rs| - 1], d);
    }
  }

  /** The filter keeps exactly the reviews of doctor d. */
  lemma ReviewsForMembers(rs: seq<Review>, d: Id)
    ensures forall x :: x in ReviewsFor(rs, d) <==> x in rs && x.doctor == d
  {
    FilterMembers(rs, (x: Review) => x.doctor == d);
  }

  function SumRatings(rs: seq<Review>): real
    decreases |rs|
  {
    if |rs| == 0 then 0.0 else SumRatings(rs[..|rs| - 1]) + rs[|rs| - 1].rating
  }

  /** `$avg: "$rating"` over a non-empty group, or the reset value 0. */
  function AverageOrZero(rs: seq<Review>): real {
    if |rs| == 0 then 0.0 else SumRatings(rs) / (|rs| as real)
  }

  /** The ids of the given reviews, in order. */
  function IdsOf(rs: seq<Review>): (ids: seq<Id>)
    ensures |ids| == |rs|
    ensures forall i :: 0 <= i < |rs| ==> ids[i] == rs[i].id
  {
    seq(|rs|, i requires 0 <= i < |rs| => rs[i].id)
  }

  /** The derived fields agree with the count and mean of the doctor's
      reviews in the collection. */
  predicate RatingFieldsMatch(d: Doctor, rs: seq<Review>) {
    var mine := ReviewsFor(rs, d.id);
    d.numReviews == |mine| && d.totalRating == AverageOrZero(mine)
  }

  /** The doctor differs from `before` only in the two derived fields. */
  predicate SameExceptRating(d: Doctor, before: Doctor) {
    d.(totalRating := before.totalRating, numReviews := before.numReviews) == before
  }

  /** One output document of the `$group` stage. */
  datatype Group = Group(numReviews: nat, avgRating: real)

  /** The aggregation pipeline `[$match {doctor: d}, $group {_id: "$doctor",
      numReviews: $sum 1, avgRating: $avg "$rating"}]` evaluated in one pass
      over the collection. It yields no group when nothing matches. */
  method AggregatePipeline(rs: seq<Review>, d: Id) returns (stats: seq<Group>)
    ensures |stats| <= 1
    ensures |stats| == 0 <==> ReviewsFor(rs, d) == []
    ensures |stats| == 1 ==> stats[0].numReviews == |ReviewsFor(rs, d)|
    ensures |stats| == 1 ==> stats[0].avgRating == SumRatings(ReviewsFor(rs, d)) / (|ReviewsFor(rs, d)| as real)
  {
    var count: nat := 0;
    var sum: real := 0.0;
    var i := 0;
    while i < |rs|
      invariant 0 <= i <= |rs|
      invariant count == |ReviewsFor(rs[..i], d)|
      invariant sum == SumRatings(ReviewsFor(rs[..i], d))
    {
      PrefixStep(rs, i, d);
      if rs[i].doctor == d {
        count := count + 1;
        sum := sum + rs[i].rating;
      }
      i := i + 1;
    }
    assert rs[..|rs|] == rs;
    ghost var mine := ReviewsFor(rs, d);
    assert count == |mine| && sum == SumRatings(mine);
    if count == 0 {
      stats := [];
    } else {
      stats := [Group(count, sum / (count as real))];
    }
  }

  /** `calcAverageRating(doctorId)`: overwrite the doctor's derived fields
      with the count and mean of its reviews, or with 0 and 0 when it has
      none. `findByIdAndUpdate` on an unknown id changes nothing. */
  function Recompute(db: Db, doctorId: Id): (db': Db)
    ensures db'.patients == db.patients && db'.reviews == db.reviews
    ensures db'.bookings == db.bookings
    ensures |db'.doctors| == |db.doctors|
    ensures DoctorIndex(db, doctorId).None? ==> db' == db
    ensures DoctorIndex(db, doctorId).Some? ==>
              var k := DoctorIndex(db, doctorId).value;
              && RatingFieldsMatch(db'.doctors[k], db.reviews)
              && SameExceptRating(db'.doctors[k], db.doctors[k])
              && forall i :: 0 <= i < |db.doctors| && i != k ==> db'.doctors[i] == db.doctors[i]
  {
    match DoctorIndex(db, doctorId)
    case None => db
    case Some(k) =>
      var mine := ReviewsFor(db.reviews, doctorId);
      var doc := db.doctors[k];
      var updated :=
        if |mine| > 0 then doc.(totalRating := SumRatings(mine) / (|mine| as real), numReviews := |mine|)
        else doc.(totalRating := 0.0, numReviews := 0);
      db.(doctors := db.doctors[k := updated])
  }

  /** `calcAverageRating` as written: run the pipeline, then write the
      group's fields, or 0 and 0 when it yields no group. It stores what
      `Recompute` describes. */
  method CalcAverageRating(db: Db, doctorId: Id) returns (db': Db)
    ensures db' == Recompute(db, doctorId)
  {
    var stats := AggregatePipeline(db.reviews, doctorId);
    match DoctorIndex(db, doctorId)
    case None =>
      db' := db;
    case Some(k) =>
      var doc := db.doctors[k];
      if |stats| > 0 {
        db' := db.(doctors := db.doctors[k := doc.(totalRating := stats[0].avgRating, numReviews := stats[0].numReviews)]);
      } else {
        db' := db.(doctors := db.doctors[k := doc.(totalRating := 0.0, numReviews := 0)]);
      }
  }

  /** Recompute overwrites rather than adjusts, so a second run changes nothing. */
  lemma RecomputeIdempotent(db: Db, doctorId: Id)
    ensures Recompute(Recompute(db, doctorId), doctorId) == Recompute(db, doctorId)
  {
    var once := Recompute(db, doctorId);
    if DoctorIndex(db, doctorId).Some? {
      var k := DoctorIndex(db, doctorId).value;
      assert forall i :: 0 <= i < |db.doctors| ==> once.doctors[i].id == db.doctors[i].id;
      assert DoctorIndex(once, doctorId) == Some(k) by {
        assert forall j :: 0 <= j < |once.doctors| ==>
          ((d: Doctor) => d.id == doctorId)(once.doctors[j]) == ((d: Doctor) => d.id == doctorId)(db.doctors[j]);
        FirstIndexAgrees(db.doctors, once.doctors, (d: Doctor) => d.id == doctorId);
      }
    }
  }

  /** FirstIndex depends only on the predicate's values. */
  lemma {:induction false} FirstIndexAgrees<T>(s: seq<T>, t: seq<T>, p: T -> bool)
    requires |s| == |t|
    requires forall j :: 0 <= j < |s| ==> p(s[j]) == p(t[j])
    ensures FirstIndex(s, p) == FirstIndex(t, p)
    decreases |s|
  {
    if |s| > 0 {
      FirstIndexAgrees(s[1..], t[1..], p);
    }
  }

  /** On a doctor whose fields already agree with its reviews, recompute is
      the identity. */
  lemma RecomputeFixesConsistent(db: Db, doctorId: Id)
    requires DoctorIndex(db, doctorId).Some?
    requires RatingFieldsMatch(db.doctors[DoctorIndex(db, doctorId).value], db.reviews)
    ensures Recompute(db, doctorId) == db
  {
    var k := DoctorIndex(db, doctorId).value;
    assert db.doctors[k := Recompute(db, doctorId).doctors[k]] == db.doctors;
  }

  /** A new doctor's defaults are exactly what recompute produces for an
      empty review set. */
  lemma NewDoctorMatchesEmptyAggregate(id: Id, name: string, email: string, password: string,
                                       photo: Option<string>, gender: Option<string>, rs: seq<Review>)
    requires forall i :: 0 <= i < |rs| ==> rs[i].doctor != id
    ensures RatingFieldsMatch(NewDoctor(id, name, email, password, photo, gender), rs)
  {
    ReviewsForNone(rs, id);
  }

  /** The sum of n ratings that each lie in [1,5] lies in [n, 5n]. */
  lemma {:induction false} SumRatingsBounds(rs: seq<Review>)
    requires forall i :: 0 <= i < |rs| ==> MinRating <= rs[i].rating <= MaxRating
    ensures (|rs| as real) * MinRating <= SumRatings(rs) <= (|rs| as real) * MaxRating
    decreases |rs|
  {
    if |rs| > 0 {
      SumRatingsBounds(rs[..|rs| - 1]);
    }
  }

  /** A non-empty mean of ratings in [1,5] also lies in [1,5]. */
  lemma AverageInRange(rs: seq<Review>)
    requires |rs| > 0
    requires forall i :: 0 <= i < |rs| ==> MinRating <= rs[i].rating <= MaxRating
    ensures MinRating <= AverageOrZero(rs) <= MaxRating
  {
    SumRatingsBounds(rs);
    var n := |rs| as real;
    var s := SumRatings(rs);
    assert s / n >= 1.0 by { assert s >= n; }
    assert s / n <= 5.0 by { assert s <= 5.0 * n; }
  }

  /** Appending a review extends the doctor's filtered list by that review
      exactly when the review is for that doctor. */
  lemma ReviewsForAppend(rs: seq<Review>, r: Review, d: Id)
    ensures ReviewsFor(rs + [r], d) == ReviewsFor(rs, d) + (if r.doctor == d then [r] else [])
  {
    assert (rs + [r])[..|rs|] == rs;
  }

  /** How the filtered prefix and its sum grow by one element. */
  lemma PrefixStep(rs: seq<Review>, i: nat, d: Id)
    requires i < |rs|
    ensures rs[i].doctor == d ==>
              && |ReviewsFor(rs[..i + 1], d)| == |ReviewsFor(rs[..i], d)| + 1
              && SumRatings(ReviewsFor(rs[..i + 1], d)) == SumRatings(ReviewsFor(rs[..i], d)) + rs[i].rating
    ensures rs[i].doctor != d ==> ReviewsFor(rs[..i + 1], d) == ReviewsFor(rs[..i], d)
  {
    assert rs[..i + 1] == rs[..i] + [rs[i]];
    ReviewsForAppend(rs[..i], rs[i], d);
    SumRatingsAppend(ReviewsFor(rs[..i], d), rs[i]);
  }

  lemma SumRatingsAppend(rs: seq<Review>, r: Review)
    ensures SumRatings(rs + [r]) == SumRatings(rs) + r.rating
  {
    assert (rs + [r])[..|rs|] == rs;
  }

  /** IdsOf distributes over concatenation. */
  lemma IdsOfAppend(rs: seq<Review>, r: Review)
    ensures IdsOf(rs + [r]) == IdsOf(rs) + [r.id]
  {
  }
}

=== FILE: review_controller.dfy ===
/** Controllers/reviewController.js together with the review model's
    post-save hook. */
module ReviewController {
  import opened Wrappers
  import opened Text
  import opened ObjectId
  import opened Schema
  import opened Rating
  import opened Http

  /** The fields `createReview` reads from the request body. */
  datatype ReviewBody = ReviewBody(rating: Option<real>, reviewText: Option<string>)

  /** JavaScript truthiness of an optional number: absent and 0 are falsy. */
  predicate NumberTruthy(n: Option<real>) {
    n.Some? && n.value != 0.0
  }

  predicate ReviewIdUsed(db: Db, id: Id) {
    exists i :: 0 <= i < |db.reviews| && db.reviews[i].id == id
  }

  /** `getAllReviews`: every review in the collection. The nested
      `:doctorId` parameter, visible through `mergeParams`, is not read. */
  function GetAllReviews(db: Db, doctorId: Option<string>): (r: Response)
    ensures r.status == 200
    ensures r.payload.ReviewList? && r.payload.count == |r.payload.reviews|
    ensures forall x :: x in r.payload.reviews <==> x in db.reviews
    // `find({})` lists each stored review once, in natural order
    ensures r.payload.reviews == db.reviews && r.payload.count == |db.reviews|
  {
    Response(200, ReviewList(|db.reviews|, db.reviews))
  }

  /** The listing does not depend on the doctor named in the path. */
  lemma GetAllReviewsIgnoresDoctor(db: Db, a: Option<string>, b: Option<string>)
    ensures GetAllReviews(db, a) == GetAllReviews(db, b)
  {
  }

  /** `Doctor.findByIdAndUpdate(doctorId, {$push: {reviews: id}})`: append
      the id to the first doctor with that id; no effect on an unknown id. */
  function PushReviewId(db: Db, doctorId: Id, reviewId: Id): (db': Db)
    ensures db'.patients == db.patients && db'.reviews == db.reviews && db'.bookings == db.bookings
    ensures |db'.doctors| == |db.doctors|
    ensures DoctorIndex(db, doctorId).None? ==> db' == db
    ensures DoctorIndex(db, doctorId).Some? ==>
              var k := DoctorIndex(db, doctorId).value;
              && db'.doctors[k] == db.doctors[k].(reviews := db.doctors[k].reviews + [reviewId])
              && forall i :: 0 <= i < |db.doctors| && i != k ==> db'.doctors[i] == db.doctors[i]
  {
    match DoctorIndex(db, doctorId)
    case None => db
    case Some(k) =>
      db.(doctors := db.doctors[k := db.doctors[k].(reviews := db.doctors[k].reviews + [reviewId])])
  }

  /** The review document `new Review({doctor, user, rating, reviewText})`
      would store, if its fields cast. */
  function BuildReview(doctorId: string, userId: Option<string>, rating: real, text: string, newId: Id): (r: Option<Review>)
    ensures r.Some? <==> CastObjectId(doctorId).Some? && userId.Some? && CastObjectId(userId.value).Some?
    ensures r.Some? ==> && r.value.id == newId
                        && Some(r.value.doctor) == CastObjectId(doctorId)
                        && Some(r.value.user) == CastObjectId(userId.value)
                        && r.value.rating == rating && r.value.text == Trim(text)
  {
    var doctor := CastObjectId(doctorId);
    var user := if userId.Some? then CastObjectId(userId.value) else None;
    if doctor.None? || user.None? then None
    else Some(Review(newId, doctor.value, user.value, rating, Trim(text)))
  }

  /** `review.save()` and its post-save hook: insert the review, then
      recompute the rating of the review's doctor. */
  function SaveReview(db: Db, r: Review): (db': Db)
    ensures db'.reviews == db.reviews + [r]
    ensures db'.patients == db.patients && db'.bookings == db.bookings
    ensures |db'.doctors| == |db.doctors|
    ensures DoctorIndex(db, r.doctor).None? ==> db'.doctors == db.doctors
    // the hook leaves the review's doctor agreeing with the extended collection
    ensures DoctorIndex(db, r.doctor).Some? ==>
              var k := DoctorIndex(db, r.doctor).value;
              && RatingFieldsMatch(db'.doctors[k], db'.reviews)
              && SameExceptRating(db'.doctors[k], db.doctors[k])
              && forall i :: 0 <= i < |db.doctors| && i != k ==> db'.doctors[i] == db.doctors[i]
  {
    var mid := db.(reviews := db.reviews + [r]);
    assert DoctorIndex(mid, r.doctor) == DoctorIndex(db, r.doctor);
    Recompute(mid, r.doctor)
  }

  /** `createReview`. The author is the token's user id, never a body
      field; `newId` is the ObjectId the driver generates. */
  function CreateReview(db: Db, doctorId: Option<string>, userId: Option<string>,
                        body: ReviewBody, newId: Id): (out: Outcome)
    ensures out.response.status in {201, 400, 500}
    ensures out.response.status != 201 ==> out.db == db
    ensures out.response.status == 400 <==>
              !Truthy(doctorId) || !NumberTruthy(body.rating) || !Truthy(body.reviewText)
    // a rating outside [1,5] or a text that trims to nothing fails validation
    ensures Truthy(doctorId) && NumberTruthy(body.rating) && Truthy(body.reviewText)
            && (!(MinRating <= body.rating.value <= MaxRating) || Trim(body.reviewText.value) == "")
            ==> out.response.status == 500
    ensures out.response.status == 201 ==>
              && out.response.payload.OneReview?
              && var r := out.response.payload.review;
              && r.id == newId
              && Some(r.doctor) == CastObjectId(doctorId.value)
              && userId.Some? && Some(r.user) == CastObjectId(userId.value)
              && r.rating == body.rating.value
              && r.text == Trim(body.reviewText.value)
              && ReviewSchemaAccepts(r)
              && out.db.reviews == db.reviews + [r]
              && out.db.patients == db.patients && out.db.bookings == db.bookings
              && |out.db.doctors| == |db.doctors|
              // the review's doctor, when it exists, has fresh derived fields
              // and the new id at the end of its list; nothing else changes
              && (DoctorIndex(db, r.doctor).Some? ==>
                    var k := DoctorIndex(db, r.doctor).value;
                    && RatingFieldsMatch(out.db.doctors[k], out.db.reviews)
                    && out.db.doctors[k].reviews == db.doctors[k].reviews + [newId]
                    && SameExceptRating(out.db.doctors[k].(reviews := db.doctors[k].reviews), db.doctors[k])
                    && forall i :: 0 <= i < |db.doctors| && i != k ==> out.db.doctors[i] == db.doctors[i])
              // an unknown doctor id is not checked: the review is still saved
              && (DoctorIndex(db, r.doctor).None? ==> out.db.doctors == db.doctors)
  {
    if !Truthy(doctorId) || !NumberTruthy(body.rating) || !Truthy(body.reviewText) then
      Outcome(Status(400), db)
    else
      match BuildReview(doctorId.value, userId, body.rating.value, body.reviewText.value, newId)
      case None => Outcome(Status(500), db)
      case Some(r) =>
        if !ReviewSchemaAccepts(r) || ReviewIdUsed(db, newId) then Outcome(Status(500), db)
        else
          var saved := SaveReview(db, r);
          assert DoctorIndex(saved, r.doctor) == DoctorIndex(db, r.doctor) by {
            FirstIndexAgrees(db.doctors, saved.doctors, (d: Doctor) => d.id == r.doctor);
          }
          Outcome(Response(201, OneReview(r)), PushReviewId(saved, r.doctor, newId))
  }

  /** A review is saved exactly when the three fields are truthy, both ids
      cast, the rating lies in [1,5], the text does not trim to nothing and
      the generated id is unused. */
  lemma CreateReviewSucceedsIff(db: Db, doctorId: Option<string>, userId: Option<string>,
                                body: ReviewBody, newId: Id)
    ensures CreateReview(db, doctorId, userId, body, newId).response.status == 201 <==>
              && Truthy(doctorId) && NumberTruthy(body.rating) && Truthy(body.reviewText)
              && CastObjectId(doctorId.value).Some?
              && userId.Some? && CastObjectId(userId.value).Some?
              && MinRating <= body.rating.value <= MaxRating
              && Trim(body.reviewText.value) != ""
              && !ReviewIdUsed(db, newId)
  {
    if Truthy(doctorId) && NumberTruthy(body.rating) && Truthy(body.reviewText) {
      var b := BuildReview(doctorId.value, userId, body.rating.value, body.reviewText.value, newId);
      assert b.Some? <==> CastObjectId(doctorId.value).Some? && userId.Some? && CastObjectId(userId.value).Some?;
    }
  }
}

=== FILE: route_policy.dfy ===
/** What the route tables promise: which requests need a token, which
    roles reach which handler, and what the handlers are then given. */
module RoutePolicy {
  import opened Wrappers
  import opened Text
  import opened ObjectId
  import opened Crypto
  import opened Schema
  import opened Http
  import opened AccessGuard
  import opened Routes
  import UserController
  import DoctorController
  import ReviewController

  /** Every route of the users router is protected. */
  lemma UserRoutesAllProtected(m: Method, rest: seq<string>)
    ensures Dispatch(m, ["users"] + rest).Some? ==> Dispatch(m, ["users"] + rest).value.route.guard.Protected?
  {
    assert (["users"] + rest)[1..] == rest;
    if DispatchLayers(UserRouter, m, rest).Some? {
      var rt := DispatchLayers(UserRouter, m, rest).value.route;
      var i :| 0 <= i < |UserRouter| && UserRouter[i].Endpoint? && UserRouter[i].route == rt;
    }
  }

  /** Without a usable bearer header, a users route answers 401 and
      changes nothing; a path no route matches answers 404. */
  lemma UsersNeedToken(db: Db, env: Env, req: Request)
    requires |req.path| >= 1 && req.path[0] == "users"
    requires !Truthy(req.authorization)
    ensures Handle(db, env, req).db == db
    ensures Handle(db, env, req).response.status in {401, 404}
  {
    UserRoutesAllProtected(req.verb, req.path[1..]);
    assert req.path == ["users"] + req.path[1..];
  }

  /** A parameter segment takes exactly one non-empty path segment. */
  lemma ParamMatches(name: string, seg: string)
    requires seg != ""
    ensures MatchPath([Param(name)], [seg]) == Some(map[name := seg])
  {
    assert [Param(name)][1..] == [] && [seg][1..] == [];
    assert MatchPrefix([Param(name)], [seg]) == Some((map[][name := seg], []));
  }

  /** GET /users reaches `getAllUsers` behind `restrict(["admin"])`. */
  lemma ListUsersIsAdminOnly()
    ensures Dispatch(GET, ["users"]) == Some(Match(Route(GET, [], Protected(Admins), GetAllUsers), map[]))
  {
    assert ["users"][1..] == [];
    assert LayerHit(UserRouter[0], GET, []).None?;
    assert LayerHit(UserRouter[1], GET, []) == Some(Match(UserRouter[1].route, map[]));
    FirstLayerWins(UserRouter, GET, [], 1);
  }

  /** A 200 from GET /users means the token carried the role "admin". */
  lemma ListUsersNeedsAdminToken(db: Db, env: Env, req: Request)
    requires req.verb == GET && req.path == ["users"]
    requires Handle(db, env, req).response.status == 200
    ensures Authenticate(env.crypto, req.authorization, env.tokenExpired).Next?
    ensures Authenticate(env.crypto, req.authorization, env.tokenExpired).identity.role == Some(AdminRole)
  {
    ListUsersIsAdminOnly();
    var g := Authenticate(env.crypto, req.authorization, env.tokenExpired);
    if g.Next? {
      RestrictPassesIff(Admins, g.identity, db);
    }
  }

  /** A path of two literal segments is matched only by that pattern. */
  lemma TwoLitsMiss(a: string, b: string, path: seq<string>)
    requires |path| == 2 && (path[0] != a || path[1] != b)
    ensures MatchPath([Lit(a), Lit(b)], path).None?
  {
    if path[0] == a {
      assert [Lit(a), Lit(b)][1..] == [Lit(b)];
      assert path[1..] == [path[1]];
      assert MatchPrefix([Lit(b)], [path[1]]).None?;
    }
  }

  lemma TwoLitsHit(a: string, b: string)
    ensures MatchPath([Lit(a), Lit(b)], [a, b]) == Some(map[])
  {
    assert [Lit(a), Lit(b)][1..] == [Lit(b)] && [a, b][1..] == [b];
    assert [Lit(b)][1..] == [] && [b][1..] == [];
    assert MatchPrefix([Lit(b)], [b]) == Some((map[], []));
  }

  /** A one-segment pattern never matches a two-segment path. */
  lemma ParamMissesLonger(name: string, path: seq<string>)
    requires |path| == 2
    ensures MatchPath([Param(name)], path).None?
    ensures MatchPath([], path).None?
  {
    var r := MatchPrefix([Param(name)], path);
    assert r.Some? ==> |r.value.1| == 1;
  }

  /** The routes on one patient id allow only the role "patient". */
  lemma PatientIdRoutes(id: string)
    requires id != ""
    ensures Dispatch(GET, ["users", id]) == Some(Match(Route(GET, [Param("id")], Protected(Patients), GetSingleUser), map["id" := id]))
    ensures Dispatch(PUT, ["users", id]) == Some(Match(Route(PUT, [Param("id")], Protected(Patients), UpdateUser), map["id" := id]))
    ensures Dispatch(DELETE, ["users", id]) == Some(Match(Route(DELETE, [Param("id")], Protected(Patients), DeleteUser), map["id" := id]))
  {
    assert ["users", id][1..] == [id];
    ParamMatches("id", id);
    assert map[] + map["id" := id] == map["id" := id];
    FirstLayerWins(UserRouter, GET, [id], 0);
    assert LayerHit(UserRouter[0], PUT, [id]).None? && LayerHit(UserRouter[1], PUT, [id]).None?;
    FirstLayerWins(UserRouter, PUT, [id], 2);
    assert LayerHit(UserRouter[0], DELETE, [id]).None? && LayerHit(UserRouter[1], DELETE, [id]).None?;
    assert LayerHit(UserRouter[2], DELETE, [id]).None?;
    FirstLayerWins(UserRouter, DELETE, [id], 3);
  }

  /** The patient's own profile allows only "patient"; the literal
      segments are not taken for an `:id`. */
  lemma PatientProfileRoute()
    ensures Dispatch(GET, ["users", "profile", "me"])
              == Some(Match(Route(GET, [Lit("profile"), Lit("me")], Protected(Patients), GetUserProfile), map[]))
  {
    var p := ["profile", "me"];
    assert ["users", "profile", "me"][1..] == p;
    ParamMissesLonger("id", p);
    TwoLitsHit("profile", "me");
    assert LayerHit(UserRouter[0], GET, p).None? && LayerHit(UserRouter[1], GET, p).None?;
    assert LayerHit(UserRouter[2], GET, p).None? && LayerHit(UserRouter[3], GET, p).None?;
    FirstLayerWins(UserRouter, GET, p, 4);
  }

  /** The patient's appointments allow only "patient". */
  lemma MyAppointmentsRoute(path: seq<string>)
    requires path == ["users", "appointments", "my-appointments"]
    ensures Dispatch(GET, path)
              == Some(Match(Route(GET, [Lit("appointments"), Lit("my-appointments")], Protected(Patients), GetMyAppointments), map[]))
  {
    var q := ["appointments", "my-appointments"];
    assert path[1..] == q;
    ParamMissesLonger("id", q);
    TwoLitsMiss("profile", "me", q);
    TwoLitsHit("appointments", "my-appointments");
    assert LayerHit(UserRouter[0], GET, q).None? && LayerHit(UserRouter[1], GET, q).None?;
    assert LayerHit(UserRouter[2], GET, q).None? && LayerHit(UserRouter[3], GET, q).None?;
    assert LayerHit(UserRouter[4], GET, q).None?;
    FirstLayerWins(UserRouter, GET, q, 5);
  }

  /** The review mount needs two segments, so it never takes a one-segment
      or empty path. */
  lemma ReviewMountMissesShort(m: Method, path: seq<string>)
    requires |path| < 2
    ensures LayerHit(DoctorRouter[0], m, path).None?
  {
    if |path| == 1 {
      assert path[1..] == [];
    }
  }

  /** The doctor routes: listing and reading need no token, updating needs
      "doctor", deleting needs "admin". */
  lemma DoctorIdRoutes(id: string)
    requires id != ""
    ensures Dispatch(GET, ["doctors"]) == Some(Match(Route(GET, [], Public, GetAllDoctors), map[]))
    ensures Dispatch(GET, ["doctors", id]) == Some(Match(Route(GET, [Param("id")], Public, GetSingleDoctor), map["id" := id]))
    ensures Dispatch(PUT, ["doctors", id]) == Some(Match(Route(PUT, [Param("id")], Protected(Doctors), UpdateDoctor), map["id" := id]))
    ensures Dispatch(DELETE, ["doctors", id]) == Some(Match(Route(DELETE, [Param("id")], Protected(Admins), DeleteDoctor), map["id" := id]))
  {
    assert ["doctors"][1..] == [];
    ReviewMountMissesShort(GET, []);
    assert LayerHit(DoctorRouter[1], GET, []) == Some(Match(DoctorRouter[1].route, map[]));
    FirstLayerWins(DoctorRouter, GET, [], 1);
    assert ["doctors", id][1..] == [id];
    ParamMatches("id", id);
    assert map[] + map["id" := id] == map["id" := id];
    ReviewMountMissesShort(GET, [id]);
    ReviewMountMissesShort(PUT, [id]);
    ReviewMountMissesShort(DELETE, [id]);
    assert LayerHit(DoctorRouter[1], GET, [id]).None?;
    FirstLayerWins(DoctorRouter, GET, [id], 2);
    assert LayerHit(DoctorRouter[1], PUT, [id]).None? && LayerHit(DoctorRouter[2], PUT, [id]).None?;
    FirstLayerWins(DoctorRouter, PUT, [id], 3);
    assert LayerHit(DoctorRouter[1], DELETE, [id]).None? && LayerHit(DoctorRouter[2], DELETE, [id]).None?;
    assert LayerHit(DoctorRouter[3], DELETE, [id]).None?;
    FirstLayerWins(DoctorRouter, DELETE, [id], 4);
  }

  /** The doctor's own profile needs "doctor". */
  lemma DoctorSelfRoute()
    ensures Dispatch(GET, ["doctors", "profile", "me"])
              == Some(Match(Route(GET, [Lit("profile"), Lit("me")], Protected(Doctors), GetDoctorProfile), map[]))
  {
    var p := ["profile", "me"];
    assert ["doctors", "profile", "me"][1..] == p;
    // "profile" fits `:doctorId` but "me" is not "reviews"
    assert [Param("doctorId"), Lit("reviews")][1..] == [Lit("reviews")] && p[1..] == ["me"];
    assert MatchPrefix([Lit("reviews")], ["me"]).None?;
    assert LayerHit(DoctorRouter[0], GET, p).None?;
    ParamMissesLonger("id", p);
    TwoLitsHit("profile", "me");
    assert LayerHit(DoctorRouter[1], GET, p).None? && LayerHit(DoctorRouter[2], GET, p).None?;
    assert LayerHit(DoctorRouter[3], GET, p).None? && LayerHit(DoctorRouter[4], GET, p).None?;
    FirstLayerWins(DoctorRouter, GET, p, 5);
  }

  /** /doctors/:doctorId/reviews is delegated to the review router, whose
      handlers see the parent's `doctorId` through `mergeParams`. */
  lemma NestedReviewRoutes(doctorId: string)
    requires doctorId != ""
    ensures Dispatch(GET, ["doctors", doctorId, "reviews"])
              == Some(Match(Route(GET, [], Public, GetAllReviews), map["doctorId" := doctorId]))
    ensures Dispatch(POST, ["doctors", doctorId, "reviews"])
              == Some(Match(Route(POST, [], Protected(Patients), CreateReview), map["doctorId" := doctorId]))
  {
    var path := [doctorId, "reviews"];
    assert ["doctors", doctorId, "reviews"][1..] == path;
    assert [Param("doctorId"), Lit("reviews")][1..] == [Lit("reviews")] && path[1..] == ["reviews"];
    assert [Lit("reviews")][1..] == [] && ["reviews"][1..] == [];
    assert MatchPrefix([Lit("reviews")], ["reviews"]) == Some((map[], []));
    var ps := map["doctorId" := doctorId];
    assert MatchPrefix([Param("doctorId"), Lit("reviews")], path) == Some((ps, []));
    assert ps + map[] == ps;
    assert RouteHit(ReviewRouter[0], GET, [], ps) == Some(Match(ReviewRouter[0], ps));
    FirstRouteWins(ReviewRouter, GET, [], ps, 0);
    assert RouteHit(ReviewRouter[0], POST, [], ps).None?;
    assert RouteHit(ReviewRouter[1], POST, [], ps) == Some(Match(ReviewRouter[1], ps));
    FirstRouteWins(ReviewRouter, POST, [], ps, 1);
    FirstLayerWins(DoctorRouter, GET, path, 0);
    FirstLayerWins(DoctorRouter, POST, path, 0);
  }

  /** What the patient handlers are called with: `:id` from the path, or
      the token's user id for the self routes. */
  lemma UserHandlerCalls(db: Db, env: Env, req: Request, params: map<string, string>, who: Identity)
    ensures var id := ParamOf(params, "id").GetOr("");
            && RunHandler(GetSingleUser, db, env, req, params, who) == Outcome(UserController.GetSingleUser(db, id), db)
            && RunHandler(GetAllUsers, db, env, req, params, who) == Outcome(UserController.GetAllUsers(db), db)
            && RunHandler(UpdateUser, db, env, req, params, who) == UserController.UpdateUser(db, id, req.body.patch)
            && RunHandler(DeleteUser, db, env, req, params, who) == UserController.DeleteUser(db, id)
            && RunHandler(GetUserProfile, db, env, req, params, who)
                 == Outcome(UserController.GetUserProfile(db, who.userId.GetOr("")), db)
            && RunHandler(GetMyAppointments, db, env, req, params, who)
                 == Outcome(UserController.GetMyAppointments(db, who.userId.GetOr("")), db)
  {
  }

  /** What the doctor handlers are called with. */
  lemma DoctorHandlerCalls(db: Db, env: Env, req: Request, params: map<string, string>, who: Identity)
    ensures var id := ParamOf(params, "id").GetOr("");
            && RunHandler(GetSingleDoctor, db, env, req, params, who) == Outcome(DoctorController.GetSingleDoctor(db, id), db)
            && RunHandler(UpdateDoctor, db, env, req, params, who) == DoctorController.UpdateDoctor(db, id, req.body.patch)
            && RunHandler(DeleteDoctor, db, env, req, params, who) == DoctorController.DeleteDoctor(db, id)
            && RunHandler(GetDoctorProfile, db, env, req, params, who)
                 == Outcome(DoctorController.GetDoctorProfile(db, who.userId.GetOr("")), db)
  {
  }

  /** `createReview` is called with the merged `:doctorId`, if any, and
      the token's user id. */
  lemma ReviewHandlerCalls(db: Db, env: Env, req: Request, params: map<string, string>, who: Identity)
    ensures RunHandler(CreateReview, db, env, req, params, who)
              == ReviewController.CreateReview(db, ParamOf(params, "doctorId"), who.userId,
                                               ReviewController.ReviewBody(req.body.rating, req.body.reviewText),
                                               env.newId)
  {
  }

  /** On a public route the handler runs without an identity. */
  lemma HandlePublic(db: Db, env: Env, req: Request, mt: Match)
    requires Dispatch(req.verb, req.path) == Some(mt) && mt.route.guard == Public
    ensures Handle(db, env, req) == RunHandler(mt.route.handler, db, env, req, mt.params, Identity(None, None))
  {
  }

  /** On a protected route whose two guards call next, the handler runs
      with the token's identity. */
  lemma HandleGuardsPass(db: Db, env: Env, req: Request, mt: Match, who: Identity)
    requires Dispatch(req.verb, req.path) == Some(mt) && mt.route.guard.Protected?
    requires Authenticate(env.crypto, req.authorization, env.tokenExpired) == Next(who)
    requires Restrict(mt.route.guard.roles, who, db).Next?
    ensures Handle(db, env, req) == RunHandler(mt.route.handler, db, env, req, mt.params, who)
  {
  }

  /** On a protected route where `restrict` halts, its status is the answer
      and nothing changes. */
  lemma HandleRestrictHalts(db: Db, env: Env, req: Request, mt: Match, who: Identity)
    requires Dispatch(req.verb, req.path) == Some(mt) && mt.route.guard.Protected?
    requires Authenticate(env.crypto, req.authorization, env.tokenExpired) == Next(who)
    requires Restrict(mt.route.guard.roles, who, db).Halt?
    ensures Handle(db, env, req) == Outcome(Status(Restrict(mt.route.guard.roles, who, db).status), db)
  {
  }

  /** Reading a doctor is public: the answer is the handler's whatever the
      Authorization header holds. */
  lemma DoctorReadsArePublic(db: Db, env: Env, req: Request, id: string)
    requires id != "" && req.verb == GET && req.path == ["doctors", id]
    ensures Handle(db, env, req) == Outcome(DoctorController.GetSingleDoctor(db, id), db)
  {
    DoctorIdRoutes(id);
    var mt := Match(Route(GET, [Param("id")], Public, GetSingleDoctor), map["id" := id]);
    HandlePublic(db, env, req, mt);
    DoctorHandlerCalls(db, env, req, mt.params, Identity(None, None));
    assert ParamOf(mt.params, "id") == Some(id);
  }

  /** A doctor's token that names an existing account is refused with 403
      on the review POST, and nothing is saved. */
  lemma DoctorCannotPostReview(db: Db, env: Env, req: Request, doctorId: string, who: Identity)
    requires doctorId != "" && req.verb == POST && req.path == ["doctors", doctorId, "reviews"]
    requires Authenticate(env.crypto, req.authorization, env.tokenExpired) == Next(who)
    requires who.role == Some(DoctorRole)
    requires Truthy(who.userId) && CastObjectId(who.userId.value).Some?
    requires FindAccountById(db, CastObjectId(who.userId.value).value).Some?
    ensures Handle(db, env, req) == Outcome(Status(403), db)
  {
    NestedReviewRoutes(doctorId);
    var mt := Match(Route(POST, [], Protected(Patients), CreateReview), map["doctorId" := doctorId]);
    HandleRestrictHalts(db, env, req, mt, who);
  }

  /** Once the guards let a patient through, the review POST is
      `createReview` with the path's doctor id and the token's user id. */
  lemma PatientPostsReview(db: Db, env: Env, req: Request, doctorId: string, who: Identity)
    requires doctorId != "" && req.verb == POST && req.path == ["doctors", doctorId, "reviews"]
    requires Authenticate(env.crypto, req.authorization, env.tokenExpired) == Next(who)
    requires Restrict(Patients, who, db).Next?
    ensures Handle(db, env, req)
              == ReviewController.CreateReview(db, Some(doctorId), who.userId,
                                               ReviewController.ReviewBody(req.body.rating, req.body.reviewText),
                                               env.newId)
  {
    NestedReviewRoutes(doctorId);
    var mt := Match(Route(POST, [], Protected(Patients), CreateReview), map["doctorId" := doctorId]);
    HandleGuardsPass(db, env, req, mt, who);
    ReviewHandlerCalls(db, env, req, mt.params, who);
    assert ParamOf(mt.params, "doctorId") == Some(doctorId);
  }

  /** The review router mounted on its own has no `:doctorId`: a POST that
      passes both guards is answered 400 and saves nothing. */
  lemma UnmountedReviewPostIs400(db: Db, env: Env, req: Request, who: Identity)
    requires req.verb == POST && req.path == ["reviews"]
    requires Authenticate(env.crypto, req.authorization, env.tokenExpired) == Next(who)
    requires Restrict(Patients, who, db).Next?
    ensures Handle(db, env, req) == Outcome(Status(400), db)
  {
    assert req.path[1..] == [];
    assert RouteHit(ReviewRouter[0], POST, [], map[]).None?;
    assert RouteHit(ReviewRouter[1], POST, [], map[]) == Some(Match(ReviewRouter[1], map[]));
    FirstRouteWins(ReviewRouter, POST, [], map[], 1);
    var mt := Match(ReviewRouter[1], map[]);
    HandleGuardsPass(db, env, req, mt, who);
    ReviewHandlerCalls(db, env, req, mt.params, who);
    assert ParamOf(mt.params, "doctorId") == None;
  }

  /** No route compares `:id` with the caller: any patient who passes the
      guards may read, update or delete any patient id. */
  lemma NoOwnershipCheckOnPatients(db: Db, env: Env, req: Request, target: string, who: Identity)
    requires target != "" && req.path == ["users", target]
    requires Authenticate(env.crypto, req.authorization, env.tokenExpired) == Next(who)
    requires Restrict(Patients, who, db).Next?
    ensures req.verb == GET ==> Handle(db, env, req) == Outcome(UserController.GetSingleUser(db, target), db)
    ensures req.verb == PUT ==> Handle(db, env, req) == UserController.UpdateUser(db, target, req.body.patch)
    ensures req.verb == DELETE ==> Handle(db, env, req) == UserController.DeleteUser(db, target)
  {
    PatientIdRoutes(target);
    if req.verb == GET {
      var mt := Match(Route(GET, [Param("id")], Protected(Patients), GetSingleUser), map["id" := target]);
      HandleGuardsPass(db, env, req, mt, who);
      UserHandlerCalls(db, env, req, mt.params, who);
      assert ParamOf(mt.params, "id") == Some(target);
    } else if req.verb == PUT {
      var mt := Match(Route(PUT, [Param("id")], Protected(Patients), UpdateUser), map["id" := target]);
      HandleGuardsPass(db, env, req, mt, who);
      UserHandlerCalls(db, env, req, mt.params, who);
      assert ParamOf(mt.params, "id") == Some(target);
    } else if req.verb == DELETE {
      var mt := Match(Route(DELETE, [Param("id")], Protected(Patients), DeleteUser), map["id" := target]);
      HandleGuardsPass(db, env, req, mt, who);
      UserHandlerCalls(db, env, req, mt.params, who);
      assert ParamOf(mt.params, "id") == Some(target);
    }
  }

  /** Likewise any doctor who passes the guards may update any doctor id. */
  lemma NoOwnershipCheckOnDoctors(db: Db, env: Env, req: Request, target: string, who: Identity)
    requires target != "" && req.verb == PUT && req.path == ["doctors", target]
    requires Authenticate(env.crypto, req.authorization, env.tokenExpired) == Next(who)
    requires Restrict(Doctors, who, db).Next?
    ensures Handle(db, env, req) == DoctorController.UpdateDoctor(db, target, req.body.patch)
  {
    DoctorIdRoutes(target);
    var mt := Match(Route(PUT, [Param("id")], Protected(Doctors), UpdateDoctor), map["id" := target]);
    HandleGuardsPass(db, env, req, mt, who);
    DoctorHandlerCalls(db, env, req, mt.params, who);
    assert ParamOf(mt.params, "id") == Some(target);
  }

  /** The self routes use the token's user id, never a path segment. */
  lemma PatientProfileUsesTokenId(db: Db, env: Env, req: Request, who: Identity)
    requires req.verb == GET && req.path == ["users", "profile", "me"]
    requires Authenticate(env.crypto, req.authorization, env.tokenExpired) == Next(who)
    requires Restrict(Patients, who, db).Next?
    ensures Handle(db, env, req) == Outcome(UserController.GetUserProfile(db, who.userId.GetOr("")), db)
  {
    PatientProfileRoute();
    HandleGuardsPass(db, env, req, Match(Route(GET, [Lit("profile"), Lit("me")], Protected(Patients), GetUserProfile), map[]), who);
    UserHandlerCalls(db, env, req, map[], who);
  }

  lemma AppointmentsUseTokenId(db: Db, env: Env, req: Request, who: Identity)
    requires req.verb == GET && req.path == ["users", "appointments", "my-appointments"]
    requires Authenticate(env.crypto, req.authorization, env.tokenExpired) == Next(who)
    requires Restrict(Patients, who, db).Next?
    ensures Handle(db, env, req) == Outcome(UserController.GetMyAppointments(db, who.userId.GetOr("")), db)
  {
    MyAppointmentsRoute(req.path);
    HandleGuardsPass(db, env, req, Match(Route(GET, [Lit("appointments"), Lit("my-appointments")], Protected(Patients), GetMyAppointments), map[]), who);
    UserHandlerCalls(db, env, req, map[], who);
  }

  lemma DoctorProfileUsesTokenId(db: Db, env: Env, req: Request, who: Identity)
    requires req.verb == GET && req.path == ["doctors", "profile", "me"]
    requires Authenticate(env.crypto, req.authorization, env.tokenExpired) == Next(who)
    requires Restrict(Doctors, who, db).Next?
    ensures Handle(db, env, req) == Outcome(DoctorController.GetDoctorProfile(db, who.userId.GetOr("")), db)
  {
    DoctorSelfRoute();
    HandleGuardsPass(db, env, req, Match(Route(GET, [Lit("profile"), Lit("me")], Protected(Doctors), GetDoctorProfile), map[]), who);
    DoctorHandlerCalls(db, env, req, map[], who);
  }

  /** `updateUser` and `updateDoctor` are mounted only on PUT: no other
      method reaches a verbatim `$set`. */
  lemma UpdatesOnlyOnPut(m: Method, path: seq<string>)
    ensures Dispatch(m, path).Some? && Dispatch(m, path).value.route.handler in {UpdateUser, UpdateDoctor}
            ==> m == PUT
  {
    if Dispatch(m, path).Some? && |path| > 0 {
      var rt := Dispatch(m, path).value.route;
      if path[0] == "users" {
        var i :| 0 <= i < |UserRouter| && UserRouter[i].Endpoint? && UserRouter[i].route == rt;
      } else if path[0] == "doctors" {
        var i :| 0 <= i < |DoctorRouter| && ((DoctorRouter[i].Endpoint? && DoctorRouter[i].route == rt)
                                             || (DoctorRouter[i].Mount? && rt in DoctorRouter[i].routes));
      }
    }
  }
}

=== FILE: routes.dfy ===
/** Routes/user.js, Routes/doctor.js and Routes/review.js as data, the
    Express matching that picks a route, and `Handle`, which runs the
    chosen route's guard chain and handler against the database. Paths are
    segment lists relative to the `/api/v1` prefix. */
module Routes {
  import opened Wrappers
  import opened ObjectId
  import opened Crypto
  import opened Schema
  import opened Http
  import opened AccessGuard
  import UserController
  import DoctorController
  import ReviewController

  datatype Method = GET | POST | PUT | DELETE

  /** A path-pattern segment: literal text, or a `:name` parameter that
      matches one non-empty segment. */
  datatype Segment = Lit(text: string) | Param(name: string)

  datatype Handler =
    | GetSingleUser | GetAllUsers | UpdateUser | DeleteUser | GetUserProfile | GetMyAppointments
    | GetAllDoctors | GetSingleDoctor | UpdateDoctor | DeleteDoctor | GetDoctorProfile
    | GetAllReviews | CreateReview

  /** `Public`: the handler runs directly. `Protected(roles)`: the chain
      `authenticate, restrict(roles), handler`. */
  datatype Guard = Public | Protected(roles: seq<string>)

  datatype Route = Route(verb: Method, pattern: seq<Segment>, guard: Guard, handler: Handler)

  /** An entry of a router: a route, or a sub-router mounted under a prefix
      with `router.use`. */
  datatype Layer = Endpoint(route: Route) | Mount(prefix: seq<Segment>, routes: seq<Route>, mergeParams: bool)

  const Patients: seq<string> := [PatientRole]
  const Doctors: seq<string> := [DoctorRole]
  const Admins: seq<string> := [AdminRole]

  /** Routes/user.js, in declaration order. */
  const UserRouter: seq<Layer> := [
    Endpoint(Route(GET, [Param("id")], Protected(Patients), GetSingleUser)),
    Endpoint(Route(GET, [], Protected(Admins), GetAllUsers)),
    Endpoint(Route(PUT, [Param("id")], Protected(Patients), UpdateUser)),
    Endpoint(Route(DELETE, [Param("id")], Protected(Patients), DeleteUser)),
    Endpoint(Route(GET, [Lit("profile"), Lit("me")], Protected(Patients), GetUserProfile)),
    Endpoint(Route(GET, [Lit("appointments"), Lit("my-appointments")], Protected(Patients), GetMyAppointments))
  ]

  /** Routes/review.js: `express.Router({mergeParams: true})`. */
  const ReviewRouter: seq<Route> := [
    Route(GET, [], Public, GetAllReviews),
    Route(POST, [], Protected(Patients), CreateReview)
  ]
  const ReviewMergeParams := true

  /** Routes/doctor.js, in declaration order. */
  const DoctorRouter: seq<Layer> := [
    Mount([Param("doctorId"), Lit("reviews")], ReviewRouter, ReviewMergeParams),
    Endpoint(Route(GET, [], Public, GetAllDoctors)),
    Endpoint(Route(GET, [Param("id")], Public, GetSingleDoctor)),
    Endpoint(Route(PUT, [Param("id")], Protected(Doctors), UpdateDoctor)),
    Endpoint(Route(DELETE, [Param("id")], Protected(Admins), DeleteDoctor)),
    Endpoint(Route(GET, [Lit("profile"), Lit("me")], Protected(Doctors), GetDoctorProfile))
  ]

  /** Match a pattern against a path prefix; yields the captured
      parameters and the rest of the path. */
  function MatchPrefix(pat: seq<Segment>, path: seq<string>): (r: Option<(map<string, string>, seq<string>)>)
    ensures r.Some? ==> |r.value.1| == |path| - |pat|
    decreases |pat|
  {
    if |pat| == 0 then Some((map[], path))
    else if |path| == 0 then None
    else
      var ok := match pat[0]
        case Lit(t) => path[0] == t
        case Param(_) => path[0] != "";
      if !ok then None
      else match MatchPrefix(pat[1..], path[1..])
        case None => None
        case Some((ps, rest)) =>
          Some((if pat[0].Param? then ps[pat[0].name := path[0]] else ps, rest))
  }

  /** A route matches when its pattern covers the whole path. */
  function MatchPath(pat: seq<Segment>, path: seq<string>): Option<map<string, string>> {
    match MatchPrefix(pat, path)
    case Some((ps, rest)) => if rest == [] then Some(ps) else None
    case None => None
  }

  /** The route a request reaches, with the parameters its handler sees. */
  datatype Match = Match(route: Route, params: map<string, string>)

  /** One route tried against the path: its method and whole pattern must
      fit. */
  function RouteHit(rt: Route, m: Method, path: seq<string>, inherited: map<string, string>): Option<Match> {
    match (if rt.verb == m then MatchPath(rt.pattern, path) else None)
    case Some(ps) => Some(Match(rt, inherited + ps))
    case None => None
  }

  /** The first route of a router whose method and pattern fit;
      `inherited` are parameters merged in from a parent router. */
  function DispatchRoutes(routes: seq<Route>, m: Method, path: seq<string>,
                          inherited: map<string, string>): (r: Option<Match>)
    ensures r.Some? ==> r.value.route in routes && r.value.route.verb == m
    decreases |routes|
  {
    if |routes| == 0 then None
    else if RouteHit(routes[0], m, path, inherited).Some? then RouteHit(routes[0], m, path, inherited)
    else DispatchRoutes(routes[1..], m, path, inherited)
  }

  /** Every route reachable through a router's layers. */
  predicate Listed(layers: seq<Layer>, rt: Route) {
    exists i :: 0 <= i < |layers| && ((layers[i].Endpoint? && layers[i].route == rt)
                                      || (layers[i].Mount? && rt in layers[i].routes))
  }

  /** One layer tried against the path: an endpoint must fit whole; a
      mount whose prefix fits hands the rest of the path to its routes,
      passing its captured parameters only when `mergeParams` is set. */
  function LayerHit(layer: Layer, m: Method, path: seq<string>): Option<Match> {
    match layer
    case Endpoint(rt) => RouteHit(rt, m, path, map[])
    case Mount(prefix, routes, merge) =>
      match MatchPrefix(prefix, path)
      case Some((ps, rest)) => DispatchRoutes(routes, m, rest, if merge then ps else map[])
      case None => None
  }

  /** Express's walk over a router: layers in declaration order; when a
      mount's sub-router has nothing that fits, the walk continues. */
  function DispatchLayers(layers: seq<Layer>, m: Method, path: seq<string>): (r: Option<Match>)
    ensures r.Some? ==> Listed(layers, r.value.route) && r.value.route.verb == m
    decreases |layers|
  {
    if |layers| == 0 then None
    else if LayerHit(layers[0], m, path).Some? then LayerHit(layers[0], m, path)
    else
      var r := DispatchLayers(layers[1..], m, path);
      assert r.Some? ==> Listed(layers[1..], r.value.route);
      r
  }

  /** Declaration order decides: the walk's answer is the first layer that
      fits, and there is none exactly when no layer fits. */
  lemma {:induction false} FirstLayerWins(layers: seq<Layer>, m: Method, path: seq<string>, k: nat)
    requires k <= |layers|
    requires forall j :: 0 <= j < k ==> LayerHit(layers[j], m, path).None?
    ensures k < |layers| && LayerHit(layers[k], m, path).Some? ==>
              DispatchLayers(layers, m, path) == LayerHit(layers[k], m, path)
    ensures k == |layers| ==> DispatchLayers(layers, m, path).None?
    decreases k
  {
    if k > 0 {
      FirstLayerWins(layers[1..], m, path, k - 1);
    }
  }

  /** The same rule inside a router's route list. */
  lemma {:induction false} FirstRouteWins(routes: seq<Route>, m: Method, path: seq<string>,
                                          inherited: map<string, string>, k: nat)
    requires k <= |routes|
    requires forall j :: 0 <= j < k ==> RouteHit(routes[j], m, path, inherited).None?
    ensures k < |routes| && RouteHit(routes[k], m, path, inherited).Some? ==>
              DispatchRoutes(routes, m, path, inherited) == RouteHit(routes[k], m, path, inherited)
    ensures k == |routes| ==> DispatchRoutes(routes, m, path, inherited).None?
    decreases k
  {
    if k > 0 {
      FirstRouteWins(routes[1..], m, path, inherited, k - 1);
    }
  }

  /** index.js mounts the three routers under /api/v1; the review router
      is mounted a second time on its own, with no `:doctorId`. */
  function Dispatch(m: Method, path: seq<string>): (r: Option<Match>)
    ensures r.Some? ==> r.value.route.verb == m
    // the first segment picks the router, and the route comes from it
    ensures r.Some? ==> |path| > 0
    ensures r.Some? ==>
              || (path[0] == "users" && Listed(UserRouter, r.value.route))
              || (path[0] == "doctors" && Listed(DoctorRouter, r.value.route))
              || (path[0] == "reviews" && r.value.route in ReviewRouter)
    ensures |path| == 0 || path[0] !in {"users", "doctors", "reviews"} ==> r.None?
  {
    if |path| == 0 then None
    else if path[0] == "users" then DispatchLayers(UserRouter, m, path[1..])
    else if path[0] == "doctors" then DispatchLayers(DoctorRouter, m, path[1..])
    else if path[0] == "reviews" then DispatchRoutes(ReviewRouter, m, path[1..], map[])
    else None
  }

  /** The request fields the handlers read. */
  datatype Body = Body(patch: Patch, rating: Option<real>, reviewText: Option<string>)
  datatype Request = Request(verb: Method, path: seq<string>, authorization: Option<string>,
                             body: Body, query: Option<string>)

  /** What the environment supplies: the crypto libraries, whether the
      presented token's lifetime has elapsed, and the next ObjectId. */
  datatype Env = Env(crypto: Crypto, tokenExpired: bool, newId: Id)

  function ParamOf(params: map<string, string>, name: string): Option<string> {
    if name in params then Some(params[name]) else None
  }

  /** Run one handler. Token-keyed handlers read `req.userId`. */
  function RunHandler(h: Handler, db: Db, env: Env, req: Request,
                      params: map<string, string>, who: Identity): (out: Outcome)
    // the read handlers never write
    ensures h !in {UpdateUser, DeleteUser, UpdateDoctor, DeleteDoctor, CreateReview} ==> out.db == db
    // a request that fails changes nothing
    ensures out.db != db ==> out.response.status in {200, 201}
  {
    var id := ParamOf(params, "id").GetOr("");
    var me := who.userId.GetOr("");
    match h
    case GetSingleUser => Outcome(UserController.GetSingleUser(db, id), db)
    case GetAllUsers => Outcome(UserController.GetAllUsers(db), db)
    case UpdateUser => UserController.UpdateUser(db, id, req.body.patch)
    case DeleteUser => UserController.DeleteUser(db, id)
    case GetUserProfile => Outcome(UserController.GetUserProfile(db, me), db)
    case GetMyAppointments => Outcome(UserController.GetMyAppointments(db, me), db)
    case GetAllDoctors => Outcome(DoctorController.GetAllDoctors(db, req.query), db)
    case GetSingleDoctor => Outcome(DoctorController.GetSingleDoctor(db, id), db)
    case UpdateDoctor => DoctorController.UpdateDoctor(db, id, req.body.patch)
    case DeleteDoctor => DoctorController.DeleteDoctor(db, id)
    case GetDoctorProfile => Outcome(DoctorController.GetDoctorProfile(db, me), db)
    case GetAllReviews => Outcome(ReviewController.GetAllReviews(db, ParamOf(params, "doctorId")), db)
    case CreateReview =>
      ReviewController.CreateReview(db, ParamOf(params, "doctorId"), who.userId,
                                    ReviewController.ReviewBody(req.body.rating, req.body.reviewText),
                                    env.newId)
  }

  /** One request, start to finish: route, guard chain, handler. A path no
      route matches gets Express's default 404. */
  function Handle(db: Db, env: Env, req: Request): (out: Outcome)
    ensures Dispatch(req.verb, req.path).None? ==> out == Outcome(Status(404), db)
    // a protected route never reaches its handler past a failed guard
    ensures Dispatch(req.verb, req.path).Some? && Dispatch(req.verb, req.path).value.route.guard.Protected?
            && Authenticate(env.crypto, req.authorization, env.tokenExpired).Halt?
            ==> out == Outcome(Status(401), db)
  {
    match Dispatch(req.verb, req.path)
    case None => Outcome(Status(404), db)
    case Some(mt) =>
      match mt.route.guard
      case Public => RunHandler(mt.route.handler, db, env, req, mt.params, Identity(None, None))
      case Protected(roles) =>
        match Authenticate(env.crypto, req.authorization, env.tokenExpired)
        case Halt(code) => Outcome(Status(code), db)
        case Next(who) =>
          match Restrict(roles, who, db)
          case Halt(code) => Outcome(Status(code), db)
          case Next(_) => RunHandler(mt.route.handler, db, env, req, mt.params, who)
  }
}

=== FILE: schema.dfy ===
/** The three mongoose models of the core (patients, doctors, reviews), the
    booking records read by one handler, and the database holding them. A
    collection is a sequence in natural (insertion) order, which is the
    order `find` and `findOne` see. */
module Schema {
  import opened Wrappers
  import opened ObjectId

  const PatientRole := "patient"
  const DoctorRole := "doctor"
  const AdminRole := "admin"

  /** A document of the `User` model (the patient store). */
  datatype Patient = Patient(
    id: Id, name: string, email: string, password: string,
    photo: Option<string>, gender: Option<string>, role: string)

  /** A document of the `Doctor` model. `approval` stands for the `isApproved`
      field the search filters on, which the schema does not declare. */
  datatype Doctor = Doctor(
    id: Id, name: string, email: string, password: string,
    photo: Option<string>, gender: Option<string>, role: string,
    specialization: Option<string>, phone: Option<string>,
    reviews: seq<Id>, totalRating: real, numReviews: int,
    approval: Option<string>)

  /** A document of the `Review` model; `text` is stored trimmed. */
  datatype Review = Review(id: Id, doctor: Id, user: Id, rating: real, text: string)

  /** A booking, reduced to the two fields `getMyAppointments` reads. */
  datatype Booking = Booking(user: Id, createdAt: int)

  datatype Db = Db(
    patients: seq<Patient>, doctors: seq<Doctor>,
    reviews: seq<Review>, bookings: seq<Booking>)

  /** Bounds the review schema puts on `rating`. */
  const MinRating: real := 1.0
  const MaxRating: real := 5.0

  /** The validators of the review schema that the typed fields leave to
      check: `rating` within [1,5] and a non-empty (already trimmed) text. */
  predicate ReviewSchemaAccepts(r: Review) {
    MinRating <= r.rating <= MaxRating && r.text != ""
  }

  /** A new doctor document with the schema defaults filled in. */
  function NewDoctor(id: Id, name: string, email: string, password: string,
                     photo: Option<string>, gender: Option<string>): (d: Doctor)
    ensures d.id == id && d.email == email && d.password == password
    ensures d.role == DoctorRole
    ensures d.reviews == [] && d.totalRating == 0.0 && d.numReviews == 0
  {
    Doctor(id, name, email, password, photo, gender, DoctorRole,
           None, None, [], 0.0, 0, None)
  }

  /** An account is found in one of the two stores. */
  datatype Account = PatientAccount(patient: Patient) | DoctorAccount(doctor: Doctor) {
    function AccountId(): Id {
      match this
      case PatientAccount(p) => p.id
      case DoctorAccount(d) => d.id
    }
    function Role(): string {
      match this
      case PatientAccount(p) => p.role
      case DoctorAccount(d) => d.role
    }
    function Email(): string {
      match this
      case PatientAccount(p) => p.email
      case DoctorAccount(d) => d.email
    }
    function Password(): string {
      match this
      case PatientAccount(p) => p.password
      case DoctorAccount(d) => d.password
    }
  }

  /** A stored patient as `.select("-password")` returns it. */
  datatype PatientView = PatientView(
    id: Id, name: string, email: string,
    photo: Option<string>, gender: Option<string>, role: string)

  /** A stored doctor as `.select("-password")` returns it. */
  datatype DoctorView = DoctorView(
    id: Id, name: string, email: string,
    photo: Option<string>, gender: Option<string>, role: string,
    specialization: Option<string>, phone: Option<string>,
    reviews: seq<Id>, totalRating: real, numReviews: int,
    approval: Option<string>)

  function PatientViewOf(p: Patient): PatientView {
    PatientView(p.id, p.name, p.email, p.photo, p.gender, p.role)
  }

  function DoctorViewOf(d: Doctor): DoctorView {
    DoctorView(d.id, d.name, d.email, d.photo, d.gender, d.role, d.specialization,
               d.phone, d.reviews, d.totalRating, d.numReviews, d.approval)
  }

  /** The view keeps every field except the password: two records with the
      same view differ at most in their password. */
  lemma ViewDropsOnlyPassword(p: Patient, q: Patient, d: Doctor, e: Doctor)
    ensures PatientViewOf(p) == PatientViewOf(q) <==> p.(password := q.password) == q
    ensures DoctorViewOf(d) == DoctorViewOf(e) <==> d.(password := e.password) == e
  {
  }

  /** A `$set` body: each present field is written verbatim. */
  datatype Patch = Patch(
    name: Option<string>, email: Option<string>, password: Option<string>,
    photo: Option<string>, gender: Option<string>, role: Option<string>,
    specialization: Option<string>, phone: Option<string>,
    reviews: Option<seq<Id>>, totalRating: Option<real>, numReviews: Option<int>)

  const EmptyPatch := Patch(None, None, None, None, None, None, None, None, None, None, None)

  /** A `$set` path: written as given when present, kept when absent. */
  predicate SetPath<T(==)>(stored: T, given: Option<T>, after: T) {
    if given.Some? then after == given.value else after == stored
  }

  /** `$set: body` on a patient document; paths the patient schema does not
      declare are dropped. No validator runs, so any role is written. */
  function PatchPatient(p: Patient, b: Patch): (q: Patient)
    ensures q.id == p.id
    ensures SetPath(p.name, b.name, q.name) && SetPath(p.email, b.email, q.email)
    ensures SetPath(p.password, b.password, q.password) && SetPath(p.role, b.role, q.role)
    ensures b.photo.Some? ==> q.photo == b.photo
    ensures b.photo.None? ==> q.photo == p.photo
    ensures b.gender.Some? ==> q.gender == b.gender
    ensures b.gender.None? ==> q.gender == p.gender
  {
    p.(name := b.name.GetOr(p.name), email := b.email.GetOr(p.email),
       password := b.password.GetOr(p.password),
       photo := if b.photo.Some? then b.photo else p.photo,
       gender := if b.gender.Some? then b.gender else p.gender,
       role := b.role.GetOr(p.role))
  }

  /** `$set: body` on a doctor document, the derived rating fields and the
      review list included; `approval` is not in the body. */
  function PatchDoctor(d: Doctor, b: Patch): (e: Doctor)
    ensures e.id == d.id && e.approval == d.approval
    ensures SetPath(d.name, b.name, e.name) && SetPath(d.email, b.email, e.email)
    ensures SetPath(d.password, b.password, e.password) && SetPath(d.role, b.role, e.role)
    ensures SetPath(d.reviews, b.reviews, e.reviews)
    ensures SetPath(d.totalRating, b.totalRating, e.totalRating)
    ensures SetPath(d.numReviews, b.numReviews, e.numReviews)
    ensures b.specialization.Some? ==> e.specialization == b.specialization
    ensures b.specialization.None? ==> e.specialization == d.specialization
    ensures b.photo.Some? ==> e.photo == b.photo
    ensures b.photo.None? ==> e.photo == d.photo
    ensures b.gender.Some? ==> e.gender == b.gender
    ensures b.gender.None? ==> e.gender == d.gender
    ensures b.phone.Some? ==> e.phone == b.phone
    ensures b.phone.None? ==> e.phone == d.phone
  {
    d.(name := b.name.GetOr(d.name), email := b.email.GetOr(d.email),
       password := b.password.GetOr(d.password),
       photo := if b.photo.Some? then b.photo else d.photo,
       gender := if b.gender.Some? then b.gender else d.gender,
       role := b.role.GetOr(d.role),
       specialization := if b.specialization.Some? then b.specialization else d.specialization,
       phone := if b.phone.Some? then b.phone else d.phone,
       reviews := b.reviews.GetOr(d.reviews),
       totalRating := b.totalRating.GetOr(d.totalRating),
       numReviews := b.numReviews.GetOr(d.numReviews))
  }

  /** A `$set` merge is idempotent, the empty body changes nothing, and it
      never touches the id. */
  lemma PatchLaws(p: Patient, d: Doctor, b: Patch)
    ensures PatchPatient(PatchPatient(p, b), b) == PatchPatient(p, b)
    ensures PatchDoctor(PatchDoctor(d, b), b) == PatchDoctor(d, b)
    ensures PatchPatient(p, EmptyPatch) == p && PatchDoctor(d, EmptyPatch) == d
    ensures PatchPatient(p, b).id == p.id && PatchDoctor(d, b).id == d.id
  {
  }

  /** The index of the first element satisfying `p`: what `findOne`
      returns in natural order. */
  function FirstIndex<T>(s: seq<T>, p: T -> bool): (r: Option<nat>)
    ensures r.Some? ==> r.value < |s| && p(s[r.value])
    ensures r.Some? ==> forall j :: 0 <= j < r.value ==> !p(s[j])
    ensures r.None? ==> forall j :: 0 <= j < |s| ==> !p(s[j])
    decreases |s|
  {
    if |s| == 0 then None
    else if p(s[0]) then Some(0)
    else match FirstIndex(s[1..], p)
      case None => None
      case Some(k) => Some(k + 1)
  }

  /** Appending an element that satisfies p, after elements that do not,
      puts the first match at the end. */
  lemma FirstIndexAtEnd<T>(s: seq<T>, x: T, p: T -> bool)
    requires forall j :: 0 <= j < |s| ==> !p(s[j])
    requires p(x)
    ensures FirstIndex(s + [x], p) == Some(|s|)
  {
    assert (s + [x])[|s|] == x;
  }

  /** The elements of s satisfying p, in their original order: what `find`
      with a filter returns. */
  function Filter<T(!new)>(s: seq<T>, p: T -> bool): (r: seq<T>)
    ensures |r| <= |s|
    ensures forall j :: 0 <= j < |r| ==> p(r[j])
    ensures forall x {:trigger multiset(r)[x]} :: multiset(r)[x] == if p(x) then multiset(s)[x] else 0
    decreases |s|
  {
    if |s| == 0 then []
    else
      assert s == s[..|s| - 1] + [s[|s| - 1]];
      Filter(s[..|s| - 1], p) + (if p(s[|s| - 1]) then [s[|s| - 1]] else [])
  }

  lemma FilterMembers<T(!new)>(s: seq<T>, p: T -> bool)
    ensures forall x :: x in Filter(s, p) <==> x in s && p(x)
  {
    forall x
      ensures x in Filter(s, p) <==> x in s && p(x)
    {
      assert x in Filter(s, p) <==> multiset(Filter(s, p))[x] > 0;
      assert x in s <==> multiset(s)[x] > 0;
    }
  }

  /** The collection with the element at index i deleted. */
  function RemoveAt<T>(s: seq<T>, i: nat): (r: seq<T>)
    requires i < |s|
    ensures |r| == |s| - 1
    ensures forall j :: 0 <= j < i ==> r[j] == s[j]
    ensures forall j :: i <= j < |r| ==> r[j] == s[j + 1]
  {
    s[..i] + s[i + 1..]
  }

  function PatientIndex(db: Db, id: Id): Option<nat> {
    FirstIndex(db.patients, (p: Patient) => p.id == id)
  }

  function DoctorIndex(db: Db, id: Id): Option<nat> {
    FirstIndex(db.doctors, (d: Doctor) => d.id == id)
  }

  /** `User.findById(id) || Doctor.findById(id)`: the patient store is
      searched first and the doctor store only on a miss. */
  function FindAccountById(db: Db, id: Id): (r: Option<Account>)
    ensures r.Some? ==> r.value.AccountId() == id
    ensures r.Some? ==> r.value in AccountsOf(db)
    ensures (exists i :: 0 <= i < |db.patients| && db.patients[i].id == id) ==> r.Some? && r.value.PatientAccount?
    ensures r.None? <==> (forall i :: 0 <= i < |db.patients| ==> db.patients[i].id != id)
                         && (forall i :: 0 <= i < |db.doctors| ==> db.doctors[i].id != id)
  {
    match PatientIndex(db, id)
    case Some(i) => Some(PatientAccount(db.patients[i]))
    case None =>
      match DoctorIndex(db, id)
      case Some(j) => Some(DoctorAccount(db.doctors[j]))
      case None => None
  }

  /** `User.findOne({email})`, then `Doctor.findOne({email})` on a miss. */
  function FindAccountByEmail(db: Db, email: string): (r: Option<Account>)
    ensures r.Some? ==> r.value.Email() == email
    ensures r.Some? && r.value.DoctorAccount? ==>
              forall i :: 0 <= i < |db.patients| ==> db.patients[i].email != email
    ensures r.Some? ==> r.value in AccountsOf(db)
    ensures r.None? <==> (forall i :: 0 <= i < |db.patients| ==> db.patients[i].email != email)
                         && (forall i :: 0 <= i < |db.doctors| ==> db.doctors[i].email != email)
  {
    match FirstIndex(db.patients, (p: Patient) => p.email == email)
    case Some(i) => Some(PatientAccount(db.patients[i]))
    case None =>
      match FirstIndex(db.doctors, (d: Doctor) => d.email == email)
      case Some(j) => Some(DoctorAccount(db.doctors[j]))
      case None => None
  }

  /** Every account in either store. */
  ghost function AccountsOf(db: Db): set<Account> {
    (set p | p in db.patients :: PatientAccount(p)) + (set d | d in db.doctors :: DoctorAccount(d))
  }

  /** True when some account in either store uses this email. */
  predicate EmailTaken(db: Db, email: string) {
    || (exists i :: 0 <= i < |db.patients| && db.patients[i].email == email)
    || (exists i :: 0 <= i < |db.doctors| && db.doctors[i].email == email)
  }
}

=== FILE: text.dfy ===
/** String operations of the JavaScript runtime that the backend relies on:
    `startsWith`, `split(" ")`, `trim()` and ASCII case folding. */
module Text {

  predicate StartsWith(s: string, prefix: string) {
    |prefix| <= |s| && s[..|prefix|] == prefix
  }

  /** `s.split(sep)` for a one-character separator: every occurrence of `sep`
      ends a part, so adjacent separators give empty parts. */
  function Split(s: string, sep: char): (parts: seq<string>)
    ensures 1 <= |parts| <= |s| + 1
    ensures forall i :: 0 <= i < |parts| ==> sep !in parts[i]
    // the first part is the longest separator-free prefix of s
    ensures StartsWith(s, parts[0])
    ensures |parts[0]| == |s| || s[|parts[0]|] == sep
    decreases |s|
  {
    if |s| == 0 then [""]
    else
      var rest := Split(s[1..], sep);
      if s[0] == sep then [""] + rest
      else [[s[0]] + rest[0]] + rest[1..]
  }

  /** `parts.join(sep)`, the inverse of `Split`. */
  function Join(parts: seq<string>, sep: char): string
    requires |parts| >= 1
    decreases |parts|
  {
    if |parts| == 1 then parts[0] else parts[0] + [sep] + Join(parts[1..], sep)
  }

  lemma {:induction false} JoinSplit(s: string, sep: char)
    ensures Join(Split(s, sep), sep) == s
    decreases |s|
  {
    if |s| > 0 {
      var rest := Split(s[1..], sep);
      JoinSplit(s[1..], sep);
      if s[0] == sep {
        assert Join([""] + rest, sep) == "" + [sep] + Join(rest, sep);
        assert s == [s[0]] + s[1..];
      } else if |rest| == 1 {
        assert s == [s[0]] + s[1..];
      } else {
        assert Join(rest, sep) == rest[0] + [sep] + Join(rest[1..], sep);
        assert s == [s[0]] + s[1..];
      }
    }
  }

  /** Splitting after a separator-free word yields that word as the first part. */
  lemma {:induction false} SplitAfterWord(w: string, sep: char, rest: string)
    requires sep !in w
    ensures Split(w + [sep] + rest, sep) == [w] + Split(rest, sep)
    decreases |w|
  {
    var s := w + [sep] + rest;
    if |w| > 0 {
      assert s[1..] == w[1..] + [sep] + rest;
      SplitAfterWord(w[1..], sep, rest);
      assert [w[0]] + w[1..] == w;
    } else {
      assert s[1..] == rest;
    }
  }

  /** A separator-free string splits into itself alone. */
  lemma {:induction false} SplitWord(w: string, sep: char)
    requires sep !in w
    ensures Split(w, sep) == [w]
    decreases |w|
  {
    if |w| > 0 {
      SplitWord(w[1..], sep);
      assert [w[0]] + w[1..] == w;
    }
  }

  lemma {:induction false} SplitJoin(parts: seq<string>, sep: char)
    requires |parts| >= 1
    requires forall i :: 0 <= i < |parts| ==> sep !in parts[i]
    ensures Split(Join(parts, sep), sep) == parts
    decreases |parts|
  {
    if |parts| == 1 {
      SplitWord(parts[0], sep);
    } else {
      SplitJoin(parts[1..], sep);
      SplitAfterWord(parts[0], sep, Join(parts[1..], sep));
      assert [parts[0]] + parts[1..] == parts;
    }
  }

  /** The characters `String.prototype.trim` removes: the ECMAScript
      WhiteSpace and LineTerminator productions. */
  predicate IsJsWhitespace(c: char) {
    || c == '\t' || c == '\n' || c == '\U{000B}' || c == '\U{000C}' || c == '\r'
    || c == ' ' || c == '\U{00A0}' || c == '\U{1680}'
    || ('\U{2000}' <= c <= '\U{200A}')
    || c == '\U{2028}' || c == '\U{2029}' || c == '\U{202F}' || c == '\U{205F}'
    || c == '\U{3000}' || c == '\U{FEFF}'
  }

  predicate AllWhitespace(s: string) {
    forall i :: 0 <= i < |s| ==> IsJsWhitespace(s[i])
  }

  function TrimStart(s: string): (r: string)
    ensures |r| <= |s| && r == s[|s| - |r|..]
    ensures AllWhitespace(s[..|s| - |r|])
    ensures r == [] || !IsJsWhitespace(r[0])
    decreases |s|
  {
    if |s| > 0 && IsJsWhitespace(s[0]) then TrimStart(s[1..]) else s
  }

  function TrimEnd(s: string): (r: string)
    ensures |r| <= |s| && r == s[..|r|]
    ensures AllWhitespace(s[|r|..])
    ensures r == [] || !IsJsWhitespace(r[|r| - 1])
    decreases |s|
  {
    if |s| > 0 && IsJsWhitespace(s[|s| - 1]) then TrimEnd(s[..|s| - 1]) else s
  }

  /** `s.trim()`: s with leading and trailing whitespace removed. */
  function Trim(s: string): (r: string)
    ensures |r| <= |s|
    ensures r == [] || (!IsJsWhitespace(r[0]) && !IsJsWhitespace(r[|r| - 1]))
  {
    TrimEnd(TrimStart(s))
  }

  /** What trim removes is whitespace on both sides of an infix of s. */
  lemma TrimIsInfix(s: string)
    ensures exists i, j :: 0 <= i <= j <= |s| && Trim(s) == s[i..j]
                         && AllWhitespace(s[..i]) && AllWhitespace(s[j..])
  {
    var t := TrimStart(s);
    var i := |s| - |t|;
    var j := i + |TrimEnd(t)|;
    assert t == s[i..];
    assert TrimEnd(t) == s[i..j];
    assert s[j..] == t[|TrimEnd(t)|..];
  }

  lemma {:induction false} TrimIdempotent(s: string)
    ensures Trim(Trim(s)) == Trim(s)
  {
    var r := Trim(s);
    if |r| > 0 {
      assert TrimStart(r) == r;
      assert TrimEnd(r) == r;
    }
  }

  /** Trim yields the empty string exactly for all-whitespace input. */
  lemma {:induction false} TrimEmptyIff(s: string)
    ensures Trim(s) == [] <==> AllWhitespace(s)
  {
    var t := TrimStart(s);
    if Trim(s) == [] {
      if |t| > 0 {
        assert false;
      }
      assert s[..|s| - |t|] == s;
    }
  }

  function LowerAscii(c: char): char {
    if 'A' <= c <= 'Z' then (c as int + 32) as char else c
  }

  function Lower(s: string): (r: string)
    ensures |r| == |s|
    ensures forall i :: 0 <= i < |s| ==> r[i] == LowerAscii(s[i])
  {
    seq(|s|, i requires 0 <= i < |s| => LowerAscii(s[i]))
  }

  /** The needle occurs in the haystack when ASCII letters are compared
      without regard to case. */
  predicate ContainsIgnoreCase(haystack: string, needle: string) {
    exists i :: 0 <= i <= |haystack| - |needle| && OccursAt(haystack, needle, i)
  }

  predicate OccursAt(haystack: string, needle: string, i: int)
    requires 0 <= i <= |haystack| - |needle|
  {
    Lower(haystack)[i..i + |needle|] == Lower(needle)
  }

  /** Lower-casing the needle first does not change whether it occurs. */
  lemma ContainsLowered(haystack: string, needle: string)
    ensures ContainsIgnoreCase(haystack, Lower(needle)) == ContainsIgnoreCase(haystack, needle)
  {
    assert Lower(Lower(needle)) == Lower(needle);
    forall i | 0 <= i <= |haystack| - |needle|
      ensures OccursAt(haystack, Lower(needle), i) == OccursAt(haystack, needle, i)
    {
    }
  }
}

=== FILE: user_controller.dfy ===
/** Controllers/userController.js: the patient-store handlers. Each takes
    the id text it is given (a path parameter or the token's user id); an id
    that does not cast to an ObjectId makes the query throw, giving 500. */
module UserController {
  import opened Wrappers
  import opened ObjectId
  import opened Schema
  import opened Http

  /** `getSingleUser`: the patient without its password, or 404. */
  function GetSingleUser(db: Db, id: string): (r: Response)
    ensures r.status in {200, 404, 500}
    ensures r.status == 500 <==> CastObjectId(id).None?
    ensures r.status == 404 <==> CastObjectId(id).Some? && PatientIndex(db, CastObjectId(id).value).None?
    ensures r.status == 200 ==>
              exists i :: 0 <= i < |db.patients| && Some(db.patients[i].id) == CastObjectId(id)
                          && r.payload == OnePatient(PatientViewOf(db.patients[i]))
  {
    match CastObjectId(id)
    case None => Status(500)
    case Some(key) =>
      match PatientIndex(db, key)
      case None => Status(404)
      case Some(i) => Response(200, OnePatient(PatientViewOf(db.patients[i])))
  }

  /** `getAllUsers`: every patient, in store order, without passwords. */
  function GetAllUsers(db: Db): (r: Response)
    ensures r.status == 200 && r.payload.PatientList?
    ensures r.payload.count == |r.payload.patients| == |db.patients|
    ensures forall i :: 0 <= i < |db.patients| ==> r.payload.patients[i] == PatientViewOf(db.patients[i])
  {
    var views := seq(|db.patients|, i requires 0 <= i < |db.patients| => PatientViewOf(db.patients[i]));
    Response(200, PatientList(|views|, views))
  }

  /** True when a patient other than the one at index k holds the email;
      the patient store's unique index then rejects the write. */
  predicate OtherPatientHasEmail(db: Db, k: nat, email: string) {
    exists j :: 0 <= j < |db.patients| && j != k && db.patients[j].email == email
  }

  /** `updateUser`: `findByIdAndUpdate(id, {$set: body}, {new: true})`.
      The body is written verbatim: a password is not hashed, no
      cross-store email check runs and no schema validator runs; only the
      unique index on email within the patient store can refuse it. */
  function UpdateUser(db: Db, id: string, body: Patch): (out: Outcome)
    ensures out.response.status in {200, 404, 500}
    ensures out.response.status != 200 ==> out.db == db
    ensures out.response.status == 404 <==>
              CastObjectId(id).Some? && PatientIndex(db, CastObjectId(id).value).None?
    ensures out.response.status == 200 ==>
              CastObjectId(id).Some? && PatientIndex(db, CastObjectId(id).value).Some?
    // a stored record is updated unless another record holds the new email
    ensures CastObjectId(id).Some? && PatientIndex(db, CastObjectId(id).value).Some? ==>
              var k := PatientIndex(db, CastObjectId(id).value).value;
              out.response.status == 200 <==>
                !OtherPatientHasEmail(db, k, PatchPatient(db.patients[k], body).email)
    ensures out.response.status == 500 <==>
              || CastObjectId(id).None?
              || (PatientIndex(db, CastObjectId(id).value).Some?
                  && var k := PatientIndex(db, CastObjectId(id).value).value;
                     OtherPatientHasEmail(db, k, PatchPatient(db.patients[k], body).email))
    ensures out.response.status == 200 ==>
              var k := PatientIndex(db, CastObjectId(id).value).value;
              && out.db == db.(patients := db.patients[k := PatchPatient(db.patients[k], body)])
              && out.response.payload == OnePatient(PatientViewOf(out.db.patients[k]))
              && !OtherPatientHasEmail(db, k, out.db.patients[k].email)
  {
    match CastObjectId(id)
    case None => Outcome(Status(500), db)
    case Some(key) =>
      match PatientIndex(db, key)
      case None => Outcome(Status(404), db)
      case Some(k) =>
        var updated := PatchPatient(db.patients[k], body);
        if OtherPatientHasEmail(db, k, updated.email) then Outcome(Status(500), db)
        else Outcome(Response(200, OnePatient(PatientViewOf(updated))),
                     db.(patients := db.patients[k := updated]))
  }

  /** `deleteUser`: remove the patient, or 404. Reviews and bookings that
      name the patient stay. */
  function DeleteUser(db: Db, id: string): (out: Outcome)
    ensures out.response.status in {200, 404, 500}
    ensures out.response.status != 200 ==> out.db == db
    // a stored record is removed; only an id that does not cast is an error
    ensures out.response.status == 500 <==> CastObjectId(id).None?
    ensures out.response.status == 200 <==>
              CastObjectId(id).Some? && PatientIndex(db, CastObjectId(id).value).Some?
    ensures out.response.status == 404 <==>
              CastObjectId(id).Some? && PatientIndex(db, CastObjectId(id).value).None?
    ensures out.response.status == 200 ==>
              var k := PatientIndex(db, CastObjectId(id).value).value;
              && out.db == db.(patients := RemoveAt(db.patients, k))
  {
    match CastObjectId(id)
    case None => Outcome(Status(500), db)
    case Some(key) =>
      match PatientIndex(db, key)
      case None => Outcome(Status(404), db)
      case Some(k) => Outcome(Status(200), db.(patients := RemoveAt(db.patients, k)))
  }

  /** `getUserProfile`: the lookup of `getSingleUser`, keyed by the token's
      user id rather than a path parameter. */
  function GetUserProfile(db: Db, userId: string): (r: Response)
    ensures r.status in {200, 404, 500}
    ensures r.status == 500 <==> CastObjectId(userId).None?
    ensures r.status == 404 <==> CastObjectId(userId).Some? && PatientIndex(db, CastObjectId(userId).value).None?
    ensures r.status == 200 ==>
              && CastObjectId(userId).Some? && PatientIndex(db, CastObjectId(userId).value).Some?
              && r.payload == OnePatient(PatientViewOf(db.patients[PatientIndex(db, CastObjectId(userId).value).value]))
              && Some(r.payload.patient.id) == CastObjectId(userId)
  {
    GetSingleUser(db, userId)
  }

  /** Newest first: `createdAt` never increases along the list. */
  predicate NewestFirst(bs: seq<Booking>) {
    forall i, j :: 0 <= i < j < |bs| ==> bs[i].createdAt >= bs[j].createdAt
  }

  function InsertByDate(b: Booking, bs: seq<Booking>): (r: seq<Booking>)
    requires NewestFirst(bs)
    ensures NewestFirst(r)
    ensures multiset(r) == multiset(bs) + multiset{b}
    ensures |r| == |bs| + 1
    ensures r[0] == b || (|bs| > 0 && r[0] == bs[0])
    decreases |bs|
  {
    if |bs| == 0 || b.createdAt >= bs[0].createdAt then [b] + bs
    else
      var rest := InsertByDate(b, bs[1..]);
      assert bs == [bs[0]] + bs[1..];
      assert rest[0].createdAt <= bs[0].createdAt;
      [bs[0]] + rest
  }

  /** `.sort({createdAt: -1})`. */
  function SortNewestFirst(bs: seq<Booking>): (r: seq<Booking>)
    ensures NewestFirst(r)
    ensures multiset(r) == multiset(bs)
    decreases |bs|
  {
    if |bs| == 0 then []
    else
      assert bs == [bs[0]] + bs[1..];
      InsertByDate(bs[0], SortNewestFirst(bs[1..]))
  }

  /** `getMyAppointments`: the caller's bookings and only those, each as
      often as stored, newest first; an empty list is still 200. */
  function GetMyAppointments(db: Db, userId: string): (r: Response)
    ensures r.status in {200, 500}
    ensures r.status == 500 <==> CastObjectId(userId).None?
    ensures r.status == 200 ==>
              && r.payload.BookingList?
              && NewestFirst(r.payload.bookings)
              && forall b :: multiset(r.payload.bookings)[b] ==
                               if Some(b.user) == CastObjectId(userId) then multiset(db.bookings)[b] else 0
  {
    match CastObjectId(userId)
    case None => Status(500)
    case Some(key) =>
      Response(200, BookingList(SortNewestFirst(Filter(db.bookings, (b: Booking) => b.user == key))))
  }
}

=== FILE: wrappers.dfy ===
/** Optional values: a JavaScript `undefined`/`null`, a missing body field, or
    a lookup that found nothing. */
module Wrappers {

  datatype Option<+T> = None | Some(value: T) {

    /** Returns the value held in Some, or `default` for None. */
    function GetOr(default: T): T {
      match this
      case Some(v) => v
      case None => default
    }
  }

  /** JavaScript truthiness of an optional string: `undefined` and `""` are falsy. */
  predicate Truthy(s: Option<string>) {
    s.Some? && s.value != ""
  }
}
